=== FILE: README.md ===
# fitnexo membership core in Dafny

This project models the core of fitnexo, a multi-tenant gym back end (Express on PostgreSQL). A gym's staff register members (`socios`) and subscription plans (`planes`). Members hold memberships (`membresias`) that are opened, replaced and renewed. Payments (`pagos`) are recorded by hand or reconciled from Mercado Pago webhooks. Check-ins and check-outs (`accesos`) are logged at the door.

Every handler is modelled as one atomic step: a pure function from a database value to `Result<Applied<T>>`.
- An `Err` carries no database, so a rejected request writes nothing by construction.
- Tables are sequences of rows in insertion order.
- Generated UUIDs are a `nextId` counter.
- Calendar days are integers, and `today` is a parameter.
- Money amounts are naturals.

Modules follow the source files:

| module | file | source |
|---|---|---|
| `Model` | model.dfy | row types, errors, lookups, `Filter`/`Count` |
| `Coverage` | coverage.dfy | "latest membership" lookups and the `membresiaActiva` predicate shared by several handlers |
| `Ledger` | ledger.dfy | server/src/routes/membresias.routes.js |
| `Plans` | plans.dfy | server/src/routes/planes.routes.js |
| `Gateway` | gateway.dfy | server/src/services/mercadopago.service.js |
| `Payments` | payments.dfy | server/src/routes/pagos.routes.js |
| `Access` | access.dfy | server/src/routes/accesos.routes.js |
| `Members` | members.dfy | server/src/routes/socios.routes.js |
| `Alerts` | alerts.dfy | server/src/routes/notificaciones.routes.js |

The invariants the model states:
- **`Ledger.SingleActive`:** at most one `activa` membership per member.
- **`Access.OneOpenPerDay`:** at most one open session per member per day.
- **Gateway id recorded at most once:** at most one payment row per gateway payment id (`Gateway.RecordedCount`).
- **`Members.UniqueDni`:** DNIs are unique within a gym.

Some choices follow the code rather than a cleaner design:
- **Error mapping:** a foreign-key violation becomes `InvalidReference`, and a unique violation becomes `DuplicateKey`. This follows server/src/middleware/errorHandler.js:5-17, which maps both to HTTP 400.
- **Renewal with no plan row:** the code reads `rows[0].duracion_dias` on an empty result. That throws before any write, so the model returns `TypeError`.
- **Falsy checks:**
  - `!monto`, `!precio` and `!duracionDias` reject 0.
  - `metodo || 'efectivo'` also replaces the empty string.
  - The check-in's `metodo = 'qr'` default applies only when the field is absent.
- **Tenant scoping follows each query:** some lookups filter on the id alone, so they reach rows of other gyms. These are the renewal and the membership edit, the check-out, the plan-delete guard, and the member of a manual payment and of a payment link. The model reproduces each query's scoping and says so on the member; this is stated as behaviour, not claimed as a defect.
- **Ties on `ORDER BY fecha_fin DESC LIMIT 1`:** the model takes the later row in table order, which SQL allows but does not require. The gate flag, the member status, the alert windows and the reported end dates depend only on the end date, so they hold for every choice. Three readings depend on which tied row is chosen (see "## Left out").

## Model

| member | source | states |
|---|---|---|
| `Coverage.Latest` | server/src/routes/socios.routes.js:80-85 | the lookup returns nothing iff the member has no candidate row; otherwise it returns one of the member's candidate rows whose end date is the largest |
| `Coverage.LatestActiveNotAfterLatest` | server/src/routes/notificaciones.routes.js:20-46 | the latest `activa` row never ends after the latest row of any tag |
| `Coverage.MembresiaActivaIff` | server/src/routes/accesos.routes.js:67-86 | the flag "latest `activa` row ends today or later" holds iff some `activa` row of the member ends today or later |
| `Coverage.LoginActiveImpliesGateActive` | server/src/routes/socio-auth.routes.js:86 | the login's flag, read from the latest row of any tag, implies the check-in's flag |
| `Coverage.LoginStricterThanGate` | server/src/routes/socio-auth.routes.js:28-33 | the converse fails: a later `reemplazada` row hides an `activa` row that is still in force from the login |
| `Ledger.Open` | server/src/routes/membresias.routes.js:80-92 | opening turns each former `activa` row of the member into `reemplazada` and appends the new `activa` row; it is then the member's only `activa` row, other tables are unchanged, and single-active is preserved |
| `Ledger.Create` | server/src/routes/membresias.routes.js:57-98 | a missing member or plan is MissingFields; a plan outside the caller's gym is NotFound; success holds iff the plan is in the gym and the member row exists; the new row starts at `fechaInicio` or today and ends `duracion_dias` later, and replaces former `activa` rows |
| `Ledger.CreatePreservesSingleActive` | server/src/routes/membresias.routes.js:80-92 | creating a membership keeps every member at no more than one `activa` row |
| `Ledger.Update` | server/src/routes/membresias.routes.js:101-123 | NotFound iff no row has the id (any gym); rows with the id take the given end date and tag and keep everything else; other rows are untouched |
| `Ledger.UpdateCanBreakSingleActive` | server/src/routes/membresias.routes.js:106-113 | an edit can tag a second row `activa`, so the edit does not keep single-active |
| `Ledger.RenewalStart` | server/src/routes/membresias.routes.js:152-155 | a renewal starts on the old end date or today, whichever is later |
| `Ledger.Renew` | server/src/routes/membresias.routes.js:126-177 | NotFound iff the id has no row; TypeError iff the requested (or inherited) plan has no row; success iff the row exists and the plan it names has a row; on success it uses the requested plan or the source row's; the new `activa` row starts at max(old end, today) and ends at least a plan duration after the old end; only rows with the id become `renovada` and nothing else changes |
| `Ledger.RenewNeverShortens` | server/src/routes/membresias.routes.js:152-158 | the renewed membership starts no earlier than the old one ends and lasts the plan's full duration |
| `Ledger.RenewKeepsOtherActiveRow` | server/src/routes/membresias.routes.js:160-171 | if the member has another `activa` row besides the source row, renewal leaves two `activa` rows |
| `Ledger.RenewTwiceLeavesTwoActive` | server/src/routes/membresias.routes.js:160-171 | renewing the same row twice takes a single-active ledger to one with two `activa` rows |
| `Ledger.RenewCorrected` | server/src/routes/membresias.routes.js:160-171 | the corrected renewal has the same outcome and new row as `Renew`, tags the source row `renovada`, leaves the new row as the member's only `activa` row and preserves single-active |
| `Plans.ActiveCount` | server/src/routes/planes.routes.js:113-118 | the count is zero iff no `activa` membership references the plan |
| `Plans.SortByPrice` | server/src/routes/planes.routes.js:27 | the result is sorted by ascending price and is a permutation of its input |
| `Plans.ListPlanRows` | server/src/routes/planes.routes.js:22-28 | the rows are the plan listing in order, each with `socios_activos`, which is zero iff no `activa` membership of any gym references the plan |
| `Plans.ListedCountGuardsDelete` | server/src/routes/planes.routes.js:108-129 | for a listed plan, a positive `socios_activos` means the delete is refused as in use, and zero means the delete succeeds |
| `Plans.ListPlans` | server/src/routes/planes.routes.js:10-34 | sorted by price; exactly the caller's plans, with the requested `activo` flag when one is given, each listed as often as in the table |
| `Plans.CreatePlan` | server/src/routes/planes.routes.js:58-77 | rejected iff the name is missing or empty, or the price or duration is missing or zero; otherwise one active plan of the gym is appended and nothing else changes |
| `Plans.CreatedPlanIsListed` | server/src/routes/planes.routes.js:10-34 | a created plan appears in the gym's listing, and in the listing of active plans, which grows by exactly one row |
| `Plans.UpdatePlan` | server/src/routes/planes.routes.js:80-105 | NotFound iff no plan of the caller's gym has the id; each field present in the request is set, each absent one kept; plans of other gyms are untouched |
| `Plans.EmptyPlanPatchIsIdentity` | server/src/routes/planes.routes.js:85-98 | an update of a plan of the gym that carries no field changes nothing and answers the plan as it was |
| `Plans.DeletePlan` | server/src/routes/planes.routes.js:108-137 | refused while any `activa` membership (of any gym) references the plan, before the gym check; then NotFound iff the plan is not the gym's; otherwise only that gym's rows with the id are removed, and memberships that referenced it keep their rows with a null plan |
| `Plans.DeletePlanTwiceNotFound` | server/src/routes/planes.routes.js:108-137 | after a delete, no listing of the gym shows the plan, and a second delete of it is NotFound, not refused as in use |
| `Gateway.CreatePreference` | server/src/services/mercadopago.service.js:17-63 | refused iff the token is absent or at most 10 characters; otherwise one ARS item at the requested price, the reference carries member, plan and gym, and return and notification URLs are present iff the configured URL is set and not `localhost` |
| `Gateway.GeneratePaymentLink` | server/src/services/mercadopago.service.js:227-258 | a member or plan id with no row (any gym) is an error; the link is generated iff both rows exist and the gateway is configured; the price is the plan's; the payer e-mail falls back to `cliente@email.com` |
| `Gateway.ProcessWebhook` | server/src/services/mercadopago.service.js:121-224 | a non-`payment` notification or one without an id, a payment not `approved`, an unparsable reference, and a reference without a member are each not processed and write nothing; an already-recorded gateway id is a duplicate with no writes; a new approved payment whose reference names a member is processed iff the member row exists (else a foreign-key error); a processed payment appends one `completado`, `mercadopago` row with the gateway amount and id, recorded exactly once |
| `Gateway.ReconcileWrites` | server/src/services/mercadopago.service.js:176-216 | when the plan exists (any gym), former `activa` rows are replaced and a membership today..today+duration is opened and linked; without it the memberships are untouched and the payment has no membership |
| `Gateway.ReconcileRecordsOnce` | server/src/services/mercadopago.service.js:205-216 | a new gateway payment appends exactly one row, leaves earlier rows as they were, and is then recorded exactly once |
| `Gateway.WebhookReplayIsDuplicate` | server/src/services/mercadopago.service.js:165-174 | replaying a processed notification, on any later day, is a duplicate with no writes; one payment row and at most one new membership |
| `Gateway.WebhookPreservesSingleActive` | server/src/services/mercadopago.service.js:176-216 | processing a notification keeps every member at no more than one `activa` row; every outcome other than a processed payment writes nothing |
| `Gateway.PreferenceReferenceReachesReconciler` | server/src/services/mercadopago.service.js:150-163 | the reference built for a payment link, paid and approved, is processed for the same member and opens a membership on the same plan |
| `Payments.Register` | server/src/routes/pagos.routes.js:81-135 | MissingFields without a member or with a zero or absent amount; with `crearMembresia` and a plan outside the gym, NotFound; success iff member and amount are given, the plan (when a membership is opened) is the gym's, the member row exists in some gym and a given `membresiaId` has a row; on success one `completado` payment dated today is appended with method defaulting to `efectivo`; without `crearMembresia` it links the given membership and leaves memberships unchanged; with it, a membership today..today+duration is opened (never extended), replaces former `activa` rows, and is linked |
| `Payments.RegisterPreservesSingleActive` | server/src/routes/pagos.routes.js:107-121 | registering a payment keeps every member at no more than one `activa` row |
| `Payments.Cancel` | server/src/routes/pagos.routes.js:172-192 | NotFound iff no payment with the id belongs to a member of the caller's gym; otherwise exactly those rows become `cancelado` and nothing else changes |
| `Payments.CancelTwiceIsCancelOnce` | server/src/routes/pagos.routes.js:176-188 | a second cancel succeeds and changes nothing |
| `Payments.Summary` | server/src/routes/pagos.routes.js:138-169 | the income and each per-method column are the sums of the amounts of the `completado` payments of the gym dated in the period (with that method); the count is their number; the three columns never exceed the income |
| `Payments.ByMethodWithinTotal` | server/src/routes/pagos.routes.js:156-163 | cash plus gateway plus transfer income is at most the total income |
| `Payments.CancelStopsCounting` | server/src/routes/pagos.routes.js:153-166 | after cancelling, the income falls by exactly what the cancelled rows contributed |
| `Payments.CancelLowersSummary` | server/src/routes/pagos.routes.js:160-166 | the summary's income after a cancel is the income before minus the cancelled payment's counted amount |
| `Payments.SummaryAppend` | server/src/routes/pagos.routes.js:153-163 | appending one payment moves the income, its method's column and the count by exactly its own contribution, and nothing when it is not counted |
| `Payments.RegisterRaisesSummary` | server/src/routes/pagos.routes.js:124-129 | after a registered payment the summary's income and the column of its method rise by its amount and the count by one when its member is in the gym and today is in the period; otherwise the summary is unchanged |
| `Payments.CreateLink` | server/src/routes/pagos.routes.js:213-238 | member and plan are required, the gateway must be configured, and a member id with no row is an error; the link is created iff both ids are given, the gateway is configured and both rows exist; its reference carries the member, plan and caller's gym |
| `Payments.CreateLinkReachesReconciler` | server/src/routes/pagos.routes.js:213-227 | the first approved payment made through a link the gym created is processed and recorded for that link's member |
| `Payments.Webhook` | server/src/routes/pagos.routes.js:241-253 | the handler answers 200 with `received`; a failure reports the error and writes nothing, as do duplicates and unprocessed notifications (the handler as mounted is `Payments.MountedWebhook`) |
| `Payments.WebhookRecordsApprovedPayment` | server/src/routes/pagos.routes.js:241-247 | the handler processes a first approved payment for an existing member, answers 200 and records the gateway id exactly once |
| `Payments.MountedWebhook` | server/src/routes/pagos.routes.js:7 | the router installs the authentication middleware before the webhook route: without a `Bearer` header, or with a token that does not verify, the answer is 401 and nothing is written; otherwise the handler answers 200 |
| `Payments.GatewayNotificationRefused` | server/src/routes/pagos.routes.js:7-10 | a gateway notification, which carries no `Authorization` header, for an approved payment of an existing member is refused with 401 and not recorded, while the handler would record it |
| `Access.OpenSession` | server/src/routes/accesos.routes.js:89-96 | finds nothing iff the member has no session opened today without exit; otherwise returns the most recent such session (no later row of the log is one) |
| `Access.Report` | server/src/routes/accesos.routes.js:84-124 | the report's `membresiaActiva` holds iff some `activa` row of the member reaches today; the warning is shown iff it does not; an end date is reported iff the member has an `activa` row, and it is the greatest end date of those rows |
| `Access.Entry` | server/src/routes/accesos.routes.js:53-129 | MissingFields without a member id; NotFound for a member outside the gym; an open session today refuses with the id of the most recent such session; otherwise (iff none of these) one session dated today, method defaulting to `qr`, is logged whatever the membership state |
| `Access.EntryKeepsOneOpenPerDay` | server/src/routes/accesos.routes.js:89-110 | check-in keeps at most one open session per member per day |
| `Access.Exit` | server/src/routes/accesos.routes.js:132-151 | NotFound iff no open session has the id (any gym); otherwise exactly those sessions get an exit and nothing else changes |
| `Access.ExitTwiceNotFound` | server/src/routes/accesos.routes.js:136-146 | a second check-out of the same session is NotFound |
| `Access.ExitKeepsOneOpenPerDay` | server/src/routes/accesos.routes.js:136-141 | check-out keeps at most one open session per member per day |
| `Access.DaysLeft` | server/src/routes/accesos.routes.js:209-211 | 0 when the member has no membership in force; otherwise the days from today to the end of the longest-running membership in force |
| `Access.ValidateQr` | server/src/routes/accesos.routes.js:154-217 | MissingFields without QR data or member id; success iff the member belongs to the caller's gym (the QR's gym field is not read); success logs one `qr` session today with no open-session check; `diasRestantes` is `DaysLeft`: 0 when the membership is inactive, else the days to the furthest end in force |
| `Access.ValidateQrTwiceOpensTwo` | server/src/routes/accesos.routes.js:194-199 | scanning the same QR twice on one day succeeds both times and leaves two open sessions for the member |
| `Access.ValidateQrGuarded` | server/src/routes/accesos.routes.js:162-166 | corrected validation: succeeds iff the member is in the gym and has no open session today, reports `diasRestantes` as `DaysLeft`, and keeps at most one open session per member per day |
| `Access.EntryAfterTwoScansNamesLatest` | server/src/routes/accesos.routes.js:89-103 | after two same-day scans of one QR, check-in is refused with the id of the second scan's session, the most recent one |
| `Access.GuardedSecondScanRefused` | server/src/routes/accesos.routes.js:89-103 | with the guard, a second scan the same day is refused with the id of the session the first scan opened |
| `Members.EstadoActual` | server/src/routes/socios.routes.js:73-85 | `sin_membresia` iff no row; `vencido` iff every row ended before today; `por_vencer` iff some row reaches today and none goes past today+7; `activo` iff some row goes past today+7 |
| `Members.EstadoIgnoresTag` | server/src/routes/socios.routes.js:73-85 | a member whose only row is `reemplazada` reads `activo` though no membership covers them |
| `Members.ListSocios` | server/src/routes/socios.routes.js:33-55 | lists exactly the members of the caller's gym that pass the `estado` filter |
| `Members.ActivoVencidoPartition` | server/src/routes/socios.routes.js:34-47 | the `activo` and `vencido` lists together count every member of the gym once; no filter lists them all |
| `Members.PorVencerWithinActivo` | server/src/routes/socios.routes.js:34-54 | every member the `por_vencer` filter lists is listed by `activo` |
| `Members.PageCount` | server/src/routes/socios.routes.js:92-99 | for a positive limit, the smallest page count that holds the total; no finite count for limit 0 |
| `Members.CreateSocio` | server/src/routes/socios.routes.js:146-164 | DNI, first and last name are required and non-empty; a DNI already used in the gym is a unique violation; success iff the three fields are given and the DNI is free in the gym; the new member is active and belongs to the caller's gym; DNI uniqueness is preserved |
| `Members.UpdateSocio` | server/src/routes/socios.routes.js:167-196 | NotFound iff no member of the caller's gym has the id; DuplicateKey iff the resulting DNI is held by another member of the gym; success iff neither; the first matching row is replaced by the patched member; given fields are set; DNI uniqueness is preserved |
| `Members.UpdateKeepsAbsentFields` | server/src/routes/socios.routes.js:172-191 | every field absent from the update keeps its value |
| `Members.IssueQr` | server/src/routes/socios.routes.js:219-252 | NotFound iff the member is not in the caller's gym; the payload is exactly the member id, the gym and the issue time; `membresiaActiva` holds iff an `activa` row reaches today; `validHasta` is present iff the member has an `activa` row, and is the greatest end date of those rows |
| `Members.IssuedQrValidates` | server/src/routes/socios.routes.js:248-252 | a QR issued by a gym validates at that gym the same day and reports the same `membresiaActiva` |
| `Alerts.ExpiringPriority` | server/src/routes/notificaciones.routes.js:84 | priority is `alta` iff the days left are at most 2, else `media` |
| `Alerts.ExpiringPriorityMonotone` | server/src/routes/notificaciones.routes.js:84 | fewer days left never lowers the priority |
| `Alerts.Expiring` | server/src/routes/notificaciones.routes.js:13-31 | the i-th alert is about the i-th active member of the gym whose latest `activa` row (with a plan row) ends within 0..7 days, so there is one alert per such member; its end date is the greatest end date of the member's `activa` rows, its days left are that date minus today (within 0..7), and the priority is `alta` iff at most two days are left and `media` iff more are |
| `Alerts.Expired` | server/src/routes/notificaciones.routes.js:34-53 | the i-th alert is about the i-th active member of the gym whose latest row of any tag (with a plan row) ended 1..30 days ago, so there is one alert per such member; its end date is the greatest end date of the member's rows, its days elapsed are today minus that date (within 1..30), and every such alert is `alta` |
| `Alerts.NeverBothExpiringAndExpired` | server/src/routes/notificaciones.routes.js:19-51 | no member is both about to expire and recently expired |
| `Alerts.AlertListsDisjoint` | server/src/routes/notificaciones.routes.js:79-91 | the two alert lists never name the same member |
| `Alerts.Summary` | server/src/routes/notificaciones.routes.js:56-110 | the list counts match the lists; the pending-payment count is the number of pending payments of the gym from the last 30 days capped at 10, the new-member count the number of members created in the last 7 days capped at 5; the total adds about-to-expire, expired and pending and leaves new members out |
| `Alerts.BadgeOf` | server/src/routes/notificaciones.routes.js:118-158 | the total is about-to-expire plus expired; `hayAlertas` iff the total is positive, iff some member of the gym is about to expire or recently expired |
| `Alerts.BadgeCounts` | server/src/routes/notificaciones.routes.js:119-141 | the about-to-expire and expired badge counts are the numbers of the gym's active members whose latest membership ends within the next seven days or ended within the last thirty (no plan join); the pending count is the number of the gym's pending payments of all time |
| `Alerts.SummaryWithinBadge` | server/src/routes/notificaciones.routes.js:120-143 | each count of the list summary is at most the badge's, which has no plan join, no date window and no limit |

## Left out

- The browser application, React pages, stores and the QR camera are presentation.
- SQL text, the connection pool, migrations and seeding are plumbing. Tables are sequences and each handler is one atomic step.
- The handlers issue several separate non-transactional queries. A failure between them is not modelled; every `Err` here happens before the first write.
- Concurrency is not modelled. Two racing webhooks for one gateway payment can both pass the duplicate check: `mp_payment_id` has no unique constraint (server/src/config/migrate.js:106). Two racing check-ins can also both pass the open-session check. Only sequential replay is proved.
- Time of day is not modelled. The handlers compare `new Date(fecha_fin) >= new Date()` on timestamps (server/src/routes/accesos.routes.js:85-86, server/src/routes/socios.routes.js:245, server/src/routes/socio-auth.routes.js:86). On a membership's last day, after midnight UTC, that comparison reports it inactive, while SQL's `fecha_fin >= CURRENT_DATE` still counts it. The model uses the day comparison throughout. JavaScript date arithmetic in UTC is likewise taken as plain day addition.
- Access.DaysLeft: `Math.ceil` of the millisecond difference is taken as the whole-day difference.
- Authentication (JWT, bcrypt, the socio login) is library code. Only the login's `membresiaActiva` predicate and the middleware's header test in front of the webhook are modelled.
- Payments.MountedWebhook: the token check (JWT verification and the user lookup of server/src/middleware/auth.js:16-26) is the input `authorized`. The middleware's 500 answer to other failures is not modelled.
- The Mercado Pago HTTP calls and tenant OAuth are left out:
  - the preference handler returns the body it would send;
  - the payment lookup's result, or its failure, is an input;
  - the `init_point` URLs are not modelled.
- QR image encoding and the image format of the QR route are left out.
- Reporting and listing endpoints are left out as read-only SQL aggregation and formatting:
  - dashboard and reports;
  - the access list and its statistics;
  - the payment list, report and receipt;
  - `GET /socios/:id`, `GET /planes/:id` and the gateway status route.
- `DELETE /socios/:id` is a plain gym-scoped delete with cascades, outside the membership lifecycle.
- Members.ListSocios: the `search` ILIKE filter is left out, because pattern matching is outside the model. Ordering by last and first name, and LIMIT/OFFSET paging, are also left out; only the filtered set and the page count are stated.
- Alerts.Expiring: rows come in member-table order rather than by end date. Plan names are not carried.
- Coverage.Latest: when several rows share the greatest end date, the model fixes one of the rows SQL may return, the later one in table order. Three readings depend on that choice: the login flag (`Coverage.LoginMembresiaActiva` reads the row's tag), the plan id reported by check-in and QR issue, and the alert lists' plan join (`Alerts.PlanJoins`). An example is a same-day re-create on the same plan: it leaves a `reemplazada` row and an `activa` row with one end date, and SQL may report either for the login flag (server/src/routes/socio-auth.routes.js:28-33).
- Access.Report: the check-in answers the plan's name (`plan_nombre`); the model carries the plan id (`planId`) and leaves the join to the plan row out.
- Access.OpenSession: the entry timestamp is not modelled, only its day. The most recent open session is taken to be the last one in the log, because each entry is appended with `CURRENT_TIMESTAMP` when it is made (server/src/config/migrate.js:121).
- Alerts.Expired: rows come in member-table order rather than by end date.
- Payments.Summary: the month and year start days of `DATE_TRUNC` are inputs (`Period.Mes`, `Period.Anio`), not computed from a calendar. An absent `periodo` means `mes`.
- Alerts.Summary: which ten pending payments and five new members are listed (the most recent) is not stated; only their number, the capped count, is.
- Amounts are naturals rather than `DECIMAL(12,2)`, and the gateway's `transaction_amount` is a natural.
- Ids are naturals drawn from a counter rather than UUIDs.
- A request field given as JSON `null` is treated like an absent one.
- Alerts.Expiring: `dias_restantes` and `dias_vencido` are taken as the day difference between the end date and today, which is what the queries evidently mean. As written, server/src/routes/notificaciones.routes.js:18 and :39 apply `EXTRACT(DAY FROM …)` to `date - date`, which PostgreSQL types as an integer, and `EXTRACT` has no integer form. So the database would reject both list queries, and `GET /notificaciones` would answer with an error instead of the lists (not executed). The model states the lists the queries describe.
- server/src/app.js:39-46 mounts neither the notification routes nor the socio login routes, so as written `/api/notificaciones` and the socio login are answered 404. `Alerts` and the login predicate in `Coverage` describe those handlers as they would behave once mounted.

## Findings

| source | as written | input that shows it | evidently intended | confidence | as-written member | corrected member |
|---|---|---|---|---|---|---|
| server/src/routes/membresias.routes.js:160-171 | renewal tags only the renewed row `renovada` and inserts a new `activa` row; any other `activa` row of the member stays `activa` | member 9 has one `activa` membership (id 1, plan of 30 days, ends day 30); it is renewed on day 20, and renewed again on day 20 (a double submit) | like every other opening path, the member keeps a single `activa` membership: the other `activa` rows become `reemplazada` | medium, not executed | `Ledger.RenewTwiceLeavesTwoActive` | `Ledger.RenewCorrected` |
| server/src/routes/accesos.routes.js:194-199 | QR validation inserts an entry without the open-session check of the check-in, although it states it reuses the check-in logic | any member of the gym whose QR is scanned twice on the same day | the second scan is refused with the open session's id, as `POST /accesos/entrada` does | medium, not executed | `Access.ValidateQrTwiceOpensTwo` | `Access.ValidateQrGuarded` |
| server/src/routes/pagos.routes.js:7 | the router installs the authentication middleware before every route, the webhook at :241 included; a gateway notification carries no `Bearer` header, so it is answered 401 and the payment is never reconciled | an approved Mercado Pago payment for an existing member, notified to `POST /api/pagos/webhook` with no `Authorization` header | the webhook is reachable without a token (its comment at :240 says so): registered before `router.use(authMiddleware)`, answered 200 and processed | high, not executed | `Payments.GatewayNotificationRefused` | `Payments.Webhook` |

=== FILE: access.dfy ===
/** The access gate (`server/src/routes/accesos.routes.js`): check-in,
    check-out and QR validation over the access log. A session is open while
    its exit is null. The check-in never refuses a member for an expired
    membership: it logs the entry and reports the membership as advisory. */
module Access {
  import opened Model
  import Coverage

  /** An open session of `socio` that started on `day`. */
  predicate OpenOn(a: Acceso, socio: Id, day: Day) {
    a.socio == socio && a.entrada == day && a.salida.None?
  }

  /** At most one open session per member per day: the invariant check-in
      is meant to keep. */
  predicate OneOpenPerDay(log: seq<Acceso>) {
    forall i, j :: 0 <= i < j < |log| && log[i].salida.None? && log[j].salida.None? && log[i].socio == log[j].socio ==>
      log[i].entrada != log[j].entrada
  }

  /** The open session the check-in finds, if any: the most recent one
      (`ORDER BY entrada DESC LIMIT 1`). Entries are appended as they are
      made, so the most recent session is the last one in the log. */
  function OpenSession(log: seq<Acceso>, socio: Id, today: Day): (r: Option<Acceso>)
    ensures r.None? <==> forall i :: 0 <= i < |log| ==> !OpenOn(log[i], socio, today)
    ensures r.Some? ==> exists i :: 0 <= i < |log| && log[i] == r.value && OpenOn(log[i], socio, today) &&
                          forall j :: i < j < |log| ==> !OpenOn(log[j], socio, today)
  {
    match LastIndex(log, (a: Acceso) => OpenOn(a, socio, today))
    case Some(k) => Some(log[k])
    case None => None
  }

  /** What the check-in answers about the member: the latest `activa`
      membership's plan and end date, whether it covers today, and whether
      the greeting carries the expired-membership warning. */
  datatype Admission = Admission(
    acceso: Acceso, socio: Id, planId: Option<Id>, membresiaActiva: bool, vence: Option<Day>, warning: bool)

  /** The member report shared by check-in and QR validation. */
  function Report(db: Db, a: Acceso, socio: Id, today: Day): (r: Admission)
    ensures r.membresiaActiva <==> Coverage.HasInForce(db.membresias, socio, today)
    ensures r.warning <==> !r.membresiaActiva
    ensures r.vence.Some? <==> exists i :: 0 <= i < |db.membresias| && Coverage.Candidate(db.membresias[i], socio, true)
    ensures r.vence.Some? ==> Coverage.IsLatestEnd(db.membresias, socio, true, r.vence.value)
    ensures r.acceso == a && r.socio == socio
  {
    Coverage.MembresiaActivaIff(db.membresias, socio, today);
    var latest := Coverage.Latest(db.membresias, socio, true);
    var activa := Coverage.MembresiaActiva(db.membresias, socio, today);
    assert latest.Some? ==> exists i :: 0 <= i < |db.membresias| && db.membresias[i] == latest.value;
    Admission(a, socio, if latest.Some? then latest.value.plan else None, activa,
              if latest.Some? then Some(latest.value.fin) else None, !activa)
  }

  /** `POST /accesos/entrada`. The member id is required; the member must
      belong to the caller's gym; an open session started today refuses the
      entry and returns the id of the most recent such session; otherwise an entry is logged
      whatever the state of the membership. The method defaults to `qr` only
      when it is absent. */
  function Entry(db: Db, gym: Id, today: Day, socio: Option<Id>, metodo: Option<string>): (r: Result<Applied<Admission>>)
    ensures socio.None? ==> r == Err(MissingFields)
    ensures socio.Some? && SocioInGym(db, socio.value, gym).None? ==> r == Err(NotFound)
    ensures socio.Some? && SocioInGym(db, socio.value, gym).Some? && OpenSession(db.accesos, socio.value, today).Some? ==>
      r.Err? && r.error.AlreadyEntered? &&
      exists i :: 0 <= i < |db.accesos| && OpenOn(db.accesos[i], socio.value, today) && db.accesos[i].id == r.error.accesoId &&
                  forall j :: i < j < |db.accesos| ==> !OpenOn(db.accesos[j], socio.value, today)
    ensures r.Ok? <==> socio.Some? && SocioInGym(db, socio.value, gym).Some? && OpenSession(db.accesos, socio.value, today).None?
    ensures r.Ok? ==>
      var a := Acceso(db.nextId, socio.value, today, None, metodo.GetOr("qr"));
      && r.value.db == db.(accesos := db.accesos + [a], nextId := db.nextId + 1)
      && r.value.value.acceso == a
      && (r.value.value.membresiaActiva <==> Coverage.HasInForce(db.membresias, socio.value, today))
      && (r.value.value.warning <==> !Coverage.HasInForce(db.membresias, socio.value, today))
  {
    if socio.None? then Err(MissingFields)
    else if SocioInGym(db, socio.value, gym).None? then Err(NotFound)
    else match OpenSession(db.accesos, socio.value, today)
      case Some(open) => Err(AlreadyEntered(open.id))
      case None =>
        var a := Acceso(db.nextId, socio.value, today, None, metodo.GetOr("qr"));
        Ok(Applied(db.(accesos := db.accesos + [a], nextId := db.nextId + 1), Report(db, a, socio.value, today)))
  }

  /** Appending a session that is not open alongside another open session of
      the same member and day keeps the invariant. */
  lemma AppendKeepsOneOpenPerDay(log: seq<Acceso>, a: Acceso)
    requires OneOpenPerDay(log)
    requires a.salida.Some? || forall i :: 0 <= i < |log| ==> !OpenOn(log[i], a.socio, a.entrada)
    ensures OneOpenPerDay(log + [a])
  {
    var log' := log + [a];
    forall i, j | 0 <= i < j < |log'| && log'[i].salida.None? && log'[j].salida.None? && log'[i].socio == log'[j].socio
      ensures log'[i].entrada != log'[j].entrada
    {
      if j == |log| {
        assert log'[i] == log[i] && !OpenOn(log[i], a.socio, a.entrada);
      } else {
        assert log'[i] == log[i] && log'[j] == log[j];
      }
    }
  }

  /** Check-in keeps at most one open session per member per day. */
  lemma EntryKeepsOneOpenPerDay(db: Db, gym: Id, today: Day, socio: Option<Id>, metodo: Option<string>)
    requires OneOpenPerDay(db.accesos)
    requires Entry(db, gym, today, socio, metodo).Ok?
    ensures OneOpenPerDay(Entry(db, gym, today, socio, metodo).value.db.accesos)
  {
    AppendKeepsOneOpenPerDay(db.accesos, Acceso(db.nextId, socio.value, today, None, metodo.GetOr("qr")));
  }

  /** `POST /accesos/:id/salida`: closes the sessions with the id that are
      still open and returns the first. The statement does not restrict the
      gym, so a session of any gym can be closed. */
  function Exit(db: Db, id: Id, now: Day): (r: Result<Applied<Acceso>>)
    ensures r.Err? <==> forall i :: 0 <= i < |db.accesos| ==> !(db.accesos[i].id == id && db.accesos[i].salida.None?)
    ensures r.Err? ==> r.error == NotFound
    ensures r.Ok? ==>
      var log' := r.value.db.accesos;
      && r.value.db == db.(accesos := log')
      && |log'| == |db.accesos|
      && (forall i :: 0 <= i < |db.accesos| && db.accesos[i].id == id && db.accesos[i].salida.None? ==>
            log'[i] == db.accesos[i].(salida := Some(now)))
      && (forall i :: 0 <= i < |db.accesos| && !(db.accesos[i].id == id && db.accesos[i].salida.None?) ==>
            log'[i] == db.accesos[i])
      && r.value.value.id == id && r.value.value.salida == Some(now) && r.value.value in log'
  {
    var closing := (a: Acceso) => a.id == id && a.salida.None?;
    var log' := seq(|db.accesos|, i requires 0 <= i < |db.accesos| =>
      if closing(db.accesos[i]) then db.accesos[i].(salida := Some(now)) else db.accesos[i]);
    match FirstIndex(db.accesos, closing)
    case None => Err(NotFound)
    case Some(k) => Ok(Applied(db.(accesos := log'), log'[k]))
  }

  /** A second check-out of the same session is NotFound. */
  lemma ExitTwiceNotFound(db: Db, id: Id, now: Day, later: Day)
    requires Exit(db, id, now).Ok?
    ensures Exit(Exit(db, id, now).value.db, id, later) == Err(NotFound)
  {
    var log' := Exit(db, id, now).value.db.accesos;
    forall i | 0 <= i < |log'| ensures !(log'[i].id == id && log'[i].salida.None?) {
      if db.accesos[i].id == id && db.accesos[i].salida.None? {
        assert log'[i].salida == Some(now);
      } else {
        assert log'[i] == db.accesos[i];
      }
    }
  }

  /** Check-out only closes sessions, so the invariant survives it. */
  lemma ExitKeepsOneOpenPerDay(db: Db, id: Id, now: Day)
    requires OneOpenPerDay(db.accesos)
    requires Exit(db, id, now).Ok?
    ensures OneOpenPerDay(Exit(db, id, now).value.db.accesos)
  {
    var log' := Exit(db, id, now).value.db.accesos;
    forall i, j | 0 <= i < j < |log'| && log'[i].salida.None? && log'[j].salida.None? && log'[i].socio == log'[j].socio
      ensures log'[i].entrada != log'[j].entrada
    {
      assert log'[i] == db.accesos[i] && log'[j] == db.accesos[j];
    }
  }

  /** The decoded QR: member id, gym id and issue time. */
  datatype QrData = QrData(id: Option<Id>, gym: Option<Id>, ts: int)

  /** What QR validation answers: the check-in report and the whole days
      left on the membership (0 when it is not active). */
  datatype Validation = Validation(admission: Admission, diasRestantes: nat)

  /** Whole days left for a member whose membership is active. */
  function DaysLeft(ms: seq<Membresia>, socio: Id, today: Day): (d: nat)
    ensures !Coverage.HasInForce(ms, socio, today) ==> d == 0
    ensures Coverage.HasInForce(ms, socio, today) ==>
      exists i :: 0 <= i < |ms| && ms[i].socio == socio && Coverage.InForce(ms[i], today) && d == ms[i].fin - today
    ensures forall i :: 0 <= i < |ms| && ms[i].socio == socio && Coverage.InForce(ms[i], today) ==> ms[i].fin - today <= d
  {
    Coverage.MembresiaActivaIff(ms, socio, today);
    if Coverage.MembresiaActiva(ms, socio, today) then
      var m := Coverage.Latest(ms, socio, true).value;
      assert exists i :: 0 <= i < |ms| && ms[i] == m;
      m.fin - today
    else 0
  }

  /** `POST /accesos/validar-qr` as written: the QR must carry a member id
      of the caller's gym; then an entry with method `qr` is logged. There is
      no open-session check, and the QR's gym field is never compared with
      the caller's gym. */
  function ValidateQr(db: Db, gym: Id, today: Day, qr: Option<QrData>): (r: Result<Applied<Validation>>)
    ensures qr.None? || qr.value.id.None? ==> r == Err(MissingFields)
    ensures r.Ok? <==> qr.Some? && qr.value.id.Some? && SocioInGym(db, qr.value.id.value, gym).Some?
    ensures r.Err? ==> r.error == MissingFields || r.error == NotFound
    ensures r.Ok? ==>
      var a := Acceso(db.nextId, qr.value.id.value, today, None, "qr");
      && r.value.db == db.(accesos := db.accesos + [a], nextId := db.nextId + 1)
      && r.value.value.admission.acceso == a
      && (r.value.value.admission.membresiaActiva <==> Coverage.HasInForce(db.membresias, qr.value.id.value, today))
      && r.value.value.diasRestantes == DaysLeft(db.membresias, qr.value.id.value, today)
      && (!r.value.value.admission.membresiaActiva ==> r.value.value.diasRestantes == 0)
  {
    if qr.None? || qr.value.id.None? then Err(MissingFields)
    else
      var socio := qr.value.id.value;
      if SocioInGym(db, socio, gym).None? then Err(NotFound)
      else
        var a := Acceso(db.nextId, socio, today, None, "qr");
        Ok(Applied(db.(accesos := db.accesos + [a], nextId := db.nextId + 1),
                   Validation(Report(db, a, socio, today), DaysLeft(db.membresias, socio, today))))
  }

  /** The missing guard: scanning the same QR twice on one day logs two
      open sessions for the member, breaking the check-in invariant. */
  lemma ValidateQrTwiceOpensTwo(db: Db, gym: Id, today: Day, qr: Option<QrData>)
    requires ValidateQr(db, gym, today, qr).Ok?
    ensures ValidateQr(ValidateQr(db, gym, today, qr).value.db, gym, today, qr).Ok?
    ensures !OneOpenPerDay(ValidateQr(ValidateQr(db, gym, today, qr).value.db, gym, today, qr).value.db.accesos)
  {
    var db1 := ValidateQr(db, gym, today, qr).value.db;
    var socio := qr.value.id.value;
    var s :| s in db.socios && s.id == socio && s.gym == gym;
    assert SocioInGym(db1, socio, gym).Some? by {
      assert db1.socios == db.socios;
    }
    var log := ValidateQr(db1, gym, today, qr).value.db.accesos;
    var n := |db.accesos|;
    assert log[n].salida.None? && log[n + 1].salida.None? && log[n].socio == log[n + 1].socio;
    assert log[n].entrada == log[n + 1].entrada;
  }

  /** After two scans of the same QR on one day, the check-in is refused
      with the id of the second scan's session, the most recent one. */
  lemma EntryAfterTwoScansNamesLatest(db: Db, gym: Id, today: Day, qr: Option<QrData>, metodo: Option<string>)
    requires ValidateQr(db, gym, today, qr).Ok?
    ensures ValidateQr(ValidateQr(db, gym, today, qr).value.db, gym, today, qr).Ok?
    ensures Entry(ValidateQr(ValidateQr(db, gym, today, qr).value.db, gym, today, qr).value.db, gym, today, qr.value.id, metodo)
            == Err(AlreadyEntered(db.nextId + 1))
  {
    var db1 := ValidateQr(db, gym, today, qr).value.db;
    var socio := qr.value.id.value;
    var s :| s in db.socios && s.id == socio && s.gym == gym;
    assert db1.socios == db.socios;
    assert SocioInGym(db1, socio, gym).Some?;
    var db2 := ValidateQr(db1, gym, today, qr).value.db;
    assert db2.socios == db.socios;
    assert SocioInGym(db2, socio, gym).Some?;
    var last := |db2.accesos| - 1;
    assert OpenOn(db2.accesos[last], socio, today) && db2.accesos[last].id == db.nextId + 1;
    var o := OpenSession(db2.accesos, socio, today);
    var k :| 0 <= k < |db2.accesos| && db2.accesos[k] == o.value && OpenOn(db2.accesos[k], socio, today) &&
             forall j :: k < j < |db2.accesos| ==> !OpenOn(db2.accesos[j], socio, today);
    assert k == last;
  }

  /** QR validation with the check-in's open-session guard: the behaviour
      the endpoint's "reuse entrada logic" comment describes. */
  function ValidateQrGuarded(db: Db, gym: Id, today: Day, qr: Option<QrData>): (r: Result<Applied<Validation>>)
    ensures qr.None? || qr.value.id.None? ==> r == Err(MissingFields)
    ensures r.Ok? <==> qr.Some? && qr.value.id.Some? && SocioInGym(db, qr.value.id.value, gym).Some?
                       && OpenSession(db.accesos, qr.value.id.value, today).None?
    ensures r.Ok? ==>
      var a := Acceso(db.nextId, qr.value.id.value, today, None, "qr");
      && r.value.db == db.(accesos := db.accesos + [a], nextId := db.nextId + 1)
      && (r.value.value.admission.membresiaActiva <==> Coverage.HasInForce(db.membresias, qr.value.id.value, today))
      && r.value.value.diasRestantes == DaysLeft(db.membresias, qr.value.id.value, today)
      && (!r.value.value.admission.membresiaActiva ==> r.value.value.diasRestantes == 0)
    ensures OneOpenPerDay(db.accesos) && r.Ok? ==> OneOpenPerDay(r.value.db.accesos)
  {
    if qr.None? || qr.value.id.None? then Err(MissingFields)
    else
      match Entry(db, gym, today, qr.value.id, Some("qr"))
      case Err(e) => Err(e)
      case Ok(Applied(db', adm)) =>
        assert OneOpenPerDay(db.accesos) ==> OneOpenPerDay(db'.accesos) by {
          if OneOpenPerDay(db.accesos) {
            EntryKeepsOneOpenPerDay(db, gym, today, qr.value.id, Some("qr"));
          }
        }
        Ok(Applied(db', Validation(adm, DaysLeft(db.membresias, qr.value.id.value, today))))
  }

  /** Once the guard is in, a second scan on the same day is refused with
      the id of the session the first one opened. */
  lemma GuardedSecondScanRefused(db: Db, gym: Id, today: Day, qr: Option<QrData>)
    requires ValidateQrGuarded(db, gym, today, qr).Ok?
    ensures ValidateQrGuarded(ValidateQrGuarded(db, gym, today, qr).value.db, gym, today, qr) == Err(AlreadyEntered(db.nextId))
  {
    var db1 := ValidateQrGuarded(db, gym, today, qr).value.db;
    var socio := qr.value.id.value;
    assert db1.socios == db.socios;
    var s :| s in db.socios && s.id == socio && s.gym == gym;
    assert SocioInGym(db1, socio, gym).Some?;
    var n := |db.accesos|;
    assert OpenOn(db1.accesos[n], socio, today);
    assert OpenSession(db.accesos, socio, today).None?;
    var o := OpenSession(db1.accesos, socio, today);
    assert o.Some?;
    var k :| 0 <= k < |db1.accesos| && db1.accesos[k] == o.value;
  }
}

=== FILE: alerts.dfy ===
/** Expiry alerts (`server/src/routes/notificaciones.routes.js`): the
    notification list with its priorities and summary, and the sidebar badge.
    Only members flagged `activo` are alerted on. "About to expire" reads the
    latest `activa` membership, "recently expired" the latest membership of
    any tag. */
module Alerts {
  import opened Model
  import Coverage

  /** Days back from today within which an expiry is still reported. */
  const ExpiredWindow: int := 30

  /** Days back within which a pending payment is listed. */
  const PendingWindow: int := 30

  /** Days back within which a new member is listed. */
  const NewMemberWindow: int := 7

  const PendingLimit: nat := 10
  const NewMemberLimit: nat := 5

  datatype Priority = Alta | Media | Baja

  /** An alert about a member's membership: its end date, the days left (or
      elapsed, for an expired one) and the priority. */
  datatype Alert = Alert(socio: Id, fin: Day, dias: int, prioridad: Priority)

  /** The membership's plan row exists (the inner `JOIN planes`). */
  predicate PlanJoins(db: Db, m: Membresia) {
    m.plan.Some? && exists j :: 0 <= j < |db.planes| && db.planes[j].id == m.plan.value
  }

  /** An active member of the gym whose latest `activa` membership ends
      within the next seven days; the list also requires its plan row. */
  predicate ExpiringSoon(db: Db, gym: Id, today: Day, withPlan: bool, s: Socio) {
    && s.gym == gym && s.activo
    && match Coverage.Latest(db.membresias, s.id, true)
       case None => false
       case Some(m) => today <= m.fin <= today + Coverage.ExpiryWindow && (withPlan ==> PlanJoins(db, m))
  }

  /** An active member of the gym whose latest membership of any tag ended
      during the last thirty days. */
  predicate RecentlyExpired(db: Db, gym: Id, today: Day, withPlan: bool, s: Socio) {
    && s.gym == gym && s.activo
    && match Coverage.Latest(db.membresias, s.id, false)
       case None => false
       case Some(m) => today - ExpiredWindow <= m.fin < today && (withPlan ==> PlanJoins(db, m))
  }

  function ExpiringFn(db: Db, gym: Id, today: Day, withPlan: bool): Socio -> bool {
    (s: Socio) => ExpiringSoon(db, gym, today, withPlan, s)
  }

  function ExpiredFn(db: Db, gym: Id, today: Day, withPlan: bool): Socio -> bool {
    (s: Socio) => RecentlyExpired(db, gym, today, withPlan, s)
  }

  /** The priority rule of the about-to-expire alerts. */
  function ExpiringPriority(dias: int): (p: Priority)
    ensures p == Alta <==> dias <= 2
    ensures p != Baja
  {
    if dias <= 2 then Alta else Media
  }

  /** Fewer days left never lowers the priority. */
  lemma ExpiringPriorityMonotone(d1: int, d2: int)
    requires d1 <= d2
    ensures ExpiringPriority(d2) == Alta ==> ExpiringPriority(d1) == Alta
    ensures ExpiringPriority(d1) == Media ==> ExpiringPriority(d2) == Media
  {
  }

  /** The alert of one member that is about to expire. */
  function ExpiringAlert(db: Db, gym: Id, today: Day, s: Socio): (a: Alert)
    requires ExpiringSoon(db, gym, today, true, s)
    ensures a.socio == s.id && 0 <= a.dias <= Coverage.ExpiryWindow
    ensures Coverage.IsLatestEnd(db.membresias, s.id, true, a.fin) && a.dias == a.fin - today
    ensures a.prioridad == Alta <==> a.dias <= 2
    ensures a.prioridad == Media <==> a.dias > 2
  {
    var m := Coverage.Latest(db.membresias, s.id, true).value;
    assert exists i :: 0 <= i < |db.membresias| && db.membresias[i] == m;
    Alert(s.id, m.fin, m.fin - today, ExpiringPriority(m.fin - today))
  }

  /** The alert of one member whose membership recently expired. */
  function ExpiredAlert(db: Db, gym: Id, today: Day, s: Socio): (a: Alert)
    requires RecentlyExpired(db, gym, today, true, s)
    ensures a.socio == s.id && 0 < a.dias <= ExpiredWindow && a.prioridad == Alta
    ensures Coverage.IsLatestEnd(db.membresias, s.id, false, a.fin) && a.dias == today - a.fin
  {
    var m := Coverage.Latest(db.membresias, s.id, false).value;
    assert exists i :: 0 <= i < |db.membresias| && db.membresias[i] == m;
    Alert(s.id, m.fin, today - m.fin, Alta)
  }

  /** The about-to-expire alerts, in member-table order. */
  function Expiring(db: Db, gym: Id, today: Day): (r: seq<Alert>)
    ensures forall i :: 0 <= i < |r| ==> 0 <= r[i].dias <= Coverage.ExpiryWindow
    ensures forall i :: 0 <= i < |r| ==> (r[i].prioridad == Alta <==> r[i].dias <= 2)
    ensures forall i :: 0 <= i < |r| ==> (r[i].prioridad == Media <==> r[i].dias > 2)
    ensures forall i :: 0 <= i < |r| ==>
      exists j :: 0 <= j < |db.socios| && db.socios[j].id == r[i].socio && ExpiringSoon(db, gym, today, true, db.socios[j])
    ensures |r| == |Filter(db.socios, ExpiringFn(db, gym, today, true))|
    ensures var xs := Filter(db.socios, ExpiringFn(db, gym, today, true));
            forall i :: 0 <= i < |r| && i < |xs| ==>
              && r[i].socio == xs[i].id
              && Coverage.IsLatestEnd(db.membresias, xs[i].id, true, r[i].fin)
              && r[i].dias == r[i].fin - today
  {
    var xs := Filter(db.socios, ExpiringFn(db, gym, today, true));
    var r := seq(|xs|, i requires 0 <= i < |xs| =>
      assert ExpiringFn(db, gym, today, true)(xs[i]);
      ExpiringAlert(db, gym, today, xs[i]));
    forall i | 0 <= i < |r|
      ensures r[i].socio == xs[i].id && Coverage.IsLatestEnd(db.membresias, xs[i].id, true, r[i].fin) && r[i].dias == r[i].fin - today
      ensures r[i].prioridad == Media <==> r[i].dias > 2
      ensures exists j :: 0 <= j < |db.socios| && db.socios[j].id == r[i].socio && ExpiringSoon(db, gym, today, true, db.socios[j])
    {
      assert ExpiringFn(db, gym, today, true)(xs[i]);
      MemberRow(db.socios, xs[i], ExpiringFn(db, gym, today, true));
    }
    r
  }

  /** The recently-expired alerts: always high priority. */
  function Expired(db: Db, gym: Id, today: Day): (r: seq<Alert>)
    ensures forall i :: 0 <= i < |r| ==> 0 < r[i].dias <= ExpiredWindow && r[i].prioridad == Alta
    ensures forall i :: 0 <= i < |r| ==>
      exists j :: 0 <= j < |db.socios| && db.socios[j].id == r[i].socio && RecentlyExpired(db, gym, today, true, db.socios[j])
    ensures |r| == |Filter(db.socios, ExpiredFn(db, gym, today, true))|
    ensures var xs := Filter(db.socios, ExpiredFn(db, gym, today, true));
            forall i :: 0 <= i < |r| && i < |xs| ==>
              && r[i].socio == xs[i].id
              && Coverage.IsLatestEnd(db.membresias, xs[i].id, false, r[i].fin)
              && r[i].dias == today - r[i].fin
  {
    var xs := Filter(db.socios, ExpiredFn(db, gym, today, true));
    var r := seq(|xs|, i requires 0 <= i < |xs| =>
      assert ExpiredFn(db, gym, today, true)(xs[i]);
      ExpiredAlert(db, gym, today, xs[i]));
    forall i | 0 <= i < |r|
      ensures r[i].socio == xs[i].id && Coverage.IsLatestEnd(db.membresias, xs[i].id, false, r[i].fin) && r[i].dias == today - r[i].fin
      ensures exists j :: 0 <= j < |db.socios| && db.socios[j].id == r[i].socio && RecentlyExpired(db, gym, today, true, db.socios[j])
    {
      assert ExpiredFn(db, gym, today, true)(xs[i]);
      MemberRow(db.socios, xs[i], ExpiredFn(db, gym, today, true));
    }
    r
  }

  /** A member listed by a filter over the member table is one of its rows. */
  lemma MemberRow(socios: seq<Socio>, s: Socio, p: Socio -> bool)
    requires s in socios && p(s)
    ensures exists j :: 0 <= j < |socios| && socios[j].id == s.id && p(socios[j])
  {
    var j :| 0 <= j < |socios| && socios[j] == s;
  }

  /** No member is both about to expire and recently expired: its latest
      row of any tag ends no earlier than its latest `activa` row. */
  lemma NeverBothExpiringAndExpired(db: Db, gym: Id, today: Day, withPlan: bool, s: Socio)
    ensures !(ExpiringSoon(db, gym, today, withPlan, s) && RecentlyExpired(db, gym, today, withPlan, s))
  {
    if Coverage.Latest(db.membresias, s.id, true).Some? {
      Coverage.LatestActiveNotAfterLatest(db.membresias, s.id);
    }
  }

  /** The two alert lists never name the same member. */
  lemma AlertListsDisjoint(db: Db, gym: Id, today: Day)
    ensures var pv := Expiring(db, gym, today);
            var v := Expired(db, gym, today);
            forall i, k :: 0 <= i < |pv| && 0 <= k < |v| ==> pv[i].socio != v[k].socio
  {
    var pv := Expiring(db, gym, today);
    var v := Expired(db, gym, today);
    forall i, k | 0 <= i < |pv| && 0 <= k < |v| ensures pv[i].socio != v[k].socio {
      var j :| 0 <= j < |db.socios| && db.socios[j].id == pv[i].socio && ExpiringSoon(db, gym, today, true, db.socios[j]);
      var l :| 0 <= l < |db.socios| && db.socios[l].id == v[k].socio && RecentlyExpired(db, gym, today, true, db.socios[l]);
      NeverBothExpiringAndExpired(db, gym, today, true, db.socios[j]);
      NeverBothExpiringAndExpired(db, gym, today, true, db.socios[l]);
    }
  }

  predicate PendingOfGym(db: Db, gym: Id, p: Pago) {
    p.estado == Pendiente && exists j :: 0 <= j < |db.socios| && db.socios[j].id == p.socio && db.socios[j].gym == gym
  }

  function PendingFn(db: Db, gym: Id, since: Option<Day>): Pago -> bool {
    (p: Pago) => PendingOfGym(db, gym, p) && (since.Some? ==> p.fecha >= since.value)
  }

  function NewMemberFn(gym: Id, since: Day): Socio -> bool {
    (s: Socio) => s.gym == gym && s.creado >= since
  }

  datatype ListSummary = ListSummary(porVencer: nat, vencidas: nat, pagosPendientes: nat, nuevosMiembros: nat, total: nat)

  function Min(a: nat, b: nat): nat {
    if a <= b then a else b
  }

  /** The `resumen` of `GET /notificaciones`: the two alert lists, the
      pending payments of the last thirty days (ten at most) and the new
      members of the week (five at most). The total leaves new members out. */
  function Summary(db: Db, gym: Id, today: Day): (r: ListSummary)
    ensures r.porVencer == |Expiring(db, gym, today)| && r.vencidas == |Expired(db, gym, today)|
    ensures r.pagosPendientes == Min(Count(db.pagos, PendingFn(db, gym, Some(today - PendingWindow))), PendingLimit)
    ensures r.nuevosMiembros == Min(Count(db.socios, NewMemberFn(gym, today - NewMemberWindow)), NewMemberLimit)
    ensures r.pagosPendientes <= PendingLimit && r.nuevosMiembros <= NewMemberLimit
    ensures r.total == r.porVencer + r.vencidas + r.pagosPendientes
    ensures r.total >= r.porVencer + r.vencidas
  {
    var pend := Filter(db.pagos, PendingFn(db, gym, Some(today - PendingWindow)));
    var nuevos := Filter(db.socios, NewMemberFn(gym, today - NewMemberWindow));
    FilterCount(db.pagos, PendingFn(db, gym, Some(today - PendingWindow)));
    FilterCount(db.socios, NewMemberFn(gym, today - NewMemberWindow));
    var pv := |Expiring(db, gym, today)|;
    var v := |Expired(db, gym, today)|;
    var pp := Min(|pend|, PendingLimit);
    ListSummary(pv, v, pp, Min(|nuevos|, NewMemberLimit), pv + v + pp)
  }

  datatype Badge = Badge(porVencer: nat, vencidas: nat, pagosPendientes: nat, total: nat, hayAlertas: bool)

  /** A member the badge counts, on either of its two membership alerts. */
  predicate Alerted(db: Db, gym: Id, today: Day, s: Socio) {
    ExpiringSoon(db, gym, today, false, s) || RecentlyExpired(db, gym, today, false, s)
  }

  /** `GET /notificaciones/resumen`: counts without the plan join, pending
      payments of all time, and a total of the two membership alerts only. */
  function BadgeOf(db: Db, gym: Id, today: Day): (r: Badge)
    ensures r.total == r.porVencer + r.vencidas
    ensures r.hayAlertas <==> r.total > 0
    ensures r.hayAlertas <==> exists j :: 0 <= j < |db.socios| && Alerted(db, gym, today, db.socios[j])
  {
    var pv := Filter(db.socios, ExpiringFn(db, gym, today, false));
    var v := Filter(db.socios, ExpiredFn(db, gym, today, false));
    var pend := Filter(db.pagos, PendingFn(db, gym, None));
    AlertedIffListed(db, gym, today);
    Badge(|pv|, |v|, |pend|, |pv| + |v|, |pv| + |v| > 0)
  }

  /** The badge's counts are the numbers of members about to expire and
      recently expired (without the plan join) and of the gym's pending
      payments of all time. */
  lemma BadgeCounts(db: Db, gym: Id, today: Day)
    ensures BadgeOf(db, gym, today).porVencer == Count(db.socios, ExpiringFn(db, gym, today, false))
    ensures BadgeOf(db, gym, today).vencidas == Count(db.socios, ExpiredFn(db, gym, today, false))
    ensures BadgeOf(db, gym, today).pagosPendientes == Count(db.pagos, PendingFn(db, gym, None))
  {
    FilterCount(db.socios, ExpiringFn(db, gym, today, false));
    FilterCount(db.socios, ExpiredFn(db, gym, today, false));
    FilterCount(db.pagos, PendingFn(db, gym, None));
  }

  /** Some member is alerted exactly when one of the two badge lists is
      non-empty. */
  lemma AlertedIffListed(db: Db, gym: Id, today: Day)
    ensures var pv := Filter(db.socios, ExpiringFn(db, gym, today, false));
            var v := Filter(db.socios, ExpiredFn(db, gym, today, false));
            (exists j :: 0 <= j < |db.socios| && Alerted(db, gym, today, db.socios[j])) <==> |pv| + |v| > 0
  {
    var pv := Filter(db.socios, ExpiringFn(db, gym, today, false));
    var v := Filter(db.socios, ExpiredFn(db, gym, today, false));
    assert (exists j :: 0 <= j < |db.socios| && Alerted(db, gym, today, db.socios[j])) ==> |pv| + |v| > 0 by {
      if j :| 0 <= j < |db.socios| && Alerted(db, gym, today, db.socios[j]) {
        if ExpiringFn(db, gym, today, false)(db.socios[j]) {
          assert db.socios[j] in pv;
        } else {
          assert ExpiredFn(db, gym, today, false)(db.socios[j]);
          assert db.socios[j] in v;
        }
      }
    }
    assert |pv| + |v| > 0 ==> exists j :: 0 <= j < |db.socios| && Alerted(db, gym, today, db.socios[j]) by {
      if |pv| > 0 {
        assert ExpiringFn(db, gym, today, false)(pv[0]);
        var j :| 0 <= j < |db.socios| && db.socios[j] == pv[0];
      } else if |v| > 0 {
        assert ExpiredFn(db, gym, today, false)(v[0]);
        var j :| 0 <= j < |db.socios| && db.socios[j] == v[0];
      }
    }
  }

  /** A `WHERE` clause that implies another selects no more rows. */
  lemma {:induction false} FilterMonotone<T>(s: seq<T>, p: T -> bool, q: T -> bool)
    requires forall x :: p(x) ==> q(x)
    ensures |Filter(s, p)| <= |Filter(s, q)|
  {
    if |s| > 0 {
      FilterMonotone(s[1..], p, q);
    }
  }

  /** Every count of the list summary is within the badge's: the list adds
      the plan join, a date window and a row limit. */
  lemma SummaryWithinBadge(db: Db, gym: Id, today: Day)
    ensures Summary(db, gym, today).porVencer <= BadgeOf(db, gym, today).porVencer
    ensures Summary(db, gym, today).vencidas <= BadgeOf(db, gym, today).vencidas
    ensures Summary(db, gym, today).pagosPendientes <= BadgeOf(db, gym, today).pagosPendientes
  {
    FilterMonotone(db.socios, ExpiringFn(db, gym, today, true), ExpiringFn(db, gym, today, false));
    FilterMonotone(db.socios, ExpiredFn(db, gym, today, true), ExpiredFn(db, gym, today, false));
    FilterMonotone(db.pagos, PendingFn(db, gym, Some(today - PendingWindow)), PendingFn(db, gym, None));
  }
}

=== FILE: coverage.dfy ===
/** Derived membership status: whether a membership covers a given day is
    never stored, it is computed from the lifecycle tag and the end date.
    The handlers read it through "the latest membership of the member", the
    row with the greatest `fecha_fin` (`ORDER BY fecha_fin DESC LIMIT 1`),
    taken either among all rows of the member or among its `activa` rows. */
module Coverage {
  import opened Model

  /** Days ahead of today that count as "about to expire". */
  const ExpiryWindow: int := 7

  /** The membership is tagged `activa` and its last day is not before
      `today`. */
  predicate InForce(m: Membresia, today: Day) {
    m.estado == Activa && m.fin >= today
  }

  /** The member has a row that is in force on `today` (the SQL
      `EXISTS (… estado = 'activa' AND fecha_fin >= CURRENT_DATE)`). */
  predicate HasInForce(ms: seq<Membresia>, socio: Id, today: Day) {
    exists i :: 0 <= i < |ms| && ms[i].socio == socio && InForce(ms[i], today)
  }

  /** Whether a row takes part in a latest-row lookup for `socio`. */
  predicate Candidate(m: Membresia, socio: Id, activeOnly: bool) {
    m.socio == socio && (activeOnly ==> m.estado == Activa)
  }

  /** The member's row with the greatest end date, among all its rows or
      among its `activa` rows. Of rows that share that end date the later
      one in table order is taken. SQL leaves the choice open: what is read
      from the end date alone (the gate flag, the status, the alert windows,
      the reported end dates) is the same for every choice, but the login
      flag reads the chosen row's tag, and the reported plan and the alert
      lists' plan join read its plan. */
  function Latest(ms: seq<Membresia>, socio: Id, activeOnly: bool): (r: Option<Membresia>)
    ensures r.None? <==> forall i :: 0 <= i < |ms| ==> !Candidate(ms[i], socio, activeOnly)
    ensures r.Some? ==> r.value in ms && Candidate(r.value, socio, activeOnly)
    ensures r.Some? ==> forall i :: 0 <= i < |ms| && Candidate(ms[i], socio, activeOnly) ==> ms[i].fin <= r.value.fin
  {
    if |ms| == 0 then None
    else
      var rest := Latest(ms[..|ms| - 1], socio, activeOnly);
      var m := ms[|ms| - 1];
      assert forall i :: 0 <= i < |ms| - 1 ==> ms[i] == ms[..|ms| - 1][i];
      if !Candidate(m, socio, activeOnly) then rest
      else if rest.Some? && rest.value.fin > m.fin then rest
      else Some(m)
  }

  /** `fin` is the greatest end date among the member's candidate rows. */
  predicate IsLatestEnd(ms: seq<Membresia>, socio: Id, activeOnly: bool, fin: Day) {
    && (exists i :: 0 <= i < |ms| && Candidate(ms[i], socio, activeOnly) && ms[i].fin == fin)
    && forall i :: 0 <= i < |ms| && Candidate(ms[i], socio, activeOnly) ==> ms[i].fin <= fin
  }

  /** The latest `activa` row's end date is the greatest end date of any
      row: every `activa` row takes part in the unrestricted lookup too. */
  lemma LatestActiveNotAfterLatest(ms: seq<Membresia>, socio: Id)
    requires Latest(ms, socio, true).Some?
    ensures Latest(ms, socio, false).Some?
    ensures Latest(ms, socio, true).value.fin <= Latest(ms, socio, false).value.fin
  {
    var a := Latest(ms, socio, true).value;
    var k :| 0 <= k < |ms| && ms[k] == a;
    assert Candidate(ms[k], socio, false);
  }

  /** `membresiaActiva` of the check-in, QR-validation and QR-issue
      handlers: the latest `activa` row exists, is tagged `activa` and
      ends on or after today. */
  predicate MembresiaActiva(ms: seq<Membresia>, socio: Id, today: Day) {
    match Latest(ms, socio, true)
    case Some(m) => m.estado == Activa && m.fin >= today
    case None => false
  }

  /** The check-in flag agrees with the member-list filter: it holds exactly
      when some row of the member is in force. */
  lemma {:induction false} MembresiaActivaIff(ms: seq<Membresia>, socio: Id, today: Day)
    ensures MembresiaActiva(ms, socio, today) <==> HasInForce(ms, socio, today)
  {
    var l := Latest(ms, socio, true);
    if HasInForce(ms, socio, today) {
      var i :| 0 <= i < |ms| && ms[i].socio == socio && InForce(ms[i], today);
      assert Candidate(ms[i], socio, true);
      assert l.Some? && ms[i].fin <= l.value.fin;
    }
    if MembresiaActiva(ms, socio, today) {
      var k :| 0 <= k < |ms| && ms[k] == l.value;
      assert ms[k].socio == socio && InForce(ms[k], today);
    }
  }

  /** `membresiaActiva` of the member login: the latest row of ANY tag must
      itself be tagged `activa` and end on or after today. */
  predicate LoginMembresiaActiva(ms: seq<Membresia>, socio: Id, today: Day) {
    match Latest(ms, socio, false)
    case Some(m) => m.estado == Activa && m.fin >= today
    case None => false
  }

  /** The login flag is stricter than the check-in flag: whenever the login
      reports an active membership, so does the gate. */
  lemma LoginActiveImpliesGateActive(ms: seq<Membresia>, socio: Id, today: Day)
    requires LoginMembresiaActiva(ms, socio, today)
    ensures MembresiaActiva(ms, socio, today)
  {
    var m := Latest(ms, socio, false).value;
    var k :| 0 <= k < |ms| && ms[k] == m;
    assert ms[k].socio == socio && InForce(ms[k], today);
    MembresiaActivaIff(ms, socio, today);
  }

  /** The converse fails: a later `reemplazada` row hides an `activa` row
      that is still in force from the login, not from the gate. */
  lemma LoginStricterThanGate()
    ensures var ms := [Membresia(1, 7, None, 0, 30, Activa), Membresia(2, 7, None, 0, 60, Reemplazada)];
            MembresiaActiva(ms, 7, 10) && !LoginMembresiaActiva(ms, 7, 10)
  {
    var ms := [Membresia(1, 7, None, 0, 30, Activa), Membresia(2, 7, None, 0, 60, Reemplazada)];
    assert ms[..1] == [ms[0]];
    assert Latest(ms, 7, true) == Some(ms[0]);
    assert Latest(ms, 7, false) == Some(ms[1]);
  }
}

=== FILE: gateway.dfy ===
/** The Mercado Pago service (`server/src/services/mercadopago.service.js`):
    the configuration check, the checkout preference a payment link is built
    from, and the webhook reconciler that turns an approved gateway payment
    into a membership and a completed payment row.

    The HTTP calls to the gateway are not modelled: the preference handler
    returns the body it would send, and the reconciler takes the result of
    the payment lookup as an input. */
module Gateway {
  import opened Model
  import Ledger

  /** `isMercadoPagoConfigured`. */
  predicate IsConfigured(token: Option<string>) {
    token.Some? && |token.value| > 10
  }

  /** The `external_reference` a preference carries, as a record. */
  datatype ExternalRef = ExternalRef(socio: Option<Id>, plan: Option<Id>, gym: Option<Id>, tipo: string)

  /** `payment.external_reference` as `JSON.parse` reads it: a JSON object,
      the JSON literal `null` (or a null field), or text that does not parse
      (also an absent field). */
  datatype RefField = Encoded(ref: ExternalRef) | JsonNull | Unparsable

  /** Item id of the preference: the plan's id, or the literal `plan-001`. */
  datatype ItemId = PlanItem(plan: Id) | PlaceholderItem

  datatype BackUrls = BackUrls(success: string, failure: string, pending: string)

  /** The checkout preference sent to the gateway. */
  datatype Preference = Preference(
    itemId: ItemId, title: string, unitPrice: nat, currency: string, quantity: nat,
    payerEmail: string, reference: ExternalRef,
    backUrls: Option<BackUrls>, autoReturn: Option<string>, notificationUrl: Option<string>)

  datatype PreferenceRequest = PreferenceRequest(
    socio: Option<Id>, plan: Option<Id>, gym: Option<Id>, monto: nat,
    descripcion: Option<string>, payerEmail: string)

  /** Process environment the service reads. */
  datatype Env = Env(token: Option<string>, frontendUrl: Option<string>, backendUrl: Option<string>)

  predicate OccursAt(s: string, sub: string, i: int) {
    0 <= i && i + |sub| <= |s| && s[i..i + |sub|] == sub
  }

  /** JavaScript `s.includes(sub)`. */
  predicate Contains(s: string, sub: string) {
    exists i :: 0 <= i <= |s| && OccursAt(s, sub, i)
  }

  /** A URL the service treats as public: set, non-empty, and not naming
      `localhost`. */
  predicate PublicUrl(u: Option<string>) {
    Given(u) && !Contains(u.value, "localhost")
  }

  const WebhookPath: string := "/api/pagos/webhook"

  /** `createPaymentPreference`: refuses when the gateway is not configured;
      otherwise describes one ARS item at the requested price, carries the
      member, plan and gym in the external reference, and adds return and
      notification URLs only for public URLs. */
  function CreatePreference(env: Env, req: PreferenceRequest): (r: Result<Preference>)
    ensures r.Err? <==> env.token.None? || |env.token.value| <= 10
    ensures r.Err? ==> r.error == GatewayNotConfigured
    ensures r.Ok? ==>
      var p := r.value;
      && p.reference == ExternalRef(req.socio, req.plan, req.gym, "membresia")
      && p.unitPrice == req.monto && p.quantity == 1 && p.currency == "ARS"
      && p.payerEmail == req.payerEmail
      && p.itemId == (if req.plan.Some? then PlanItem(req.plan.value) else PlaceholderItem)
      && p.title == OrElse(req.descripcion, "Membresía de Gimnasio")
      && (p.backUrls.Some? <==> PublicUrl(env.frontendUrl))
      && (p.autoReturn.Some? <==> PublicUrl(env.frontendUrl))
      && (p.backUrls.Some? ==> p.backUrls.value.success == env.frontendUrl.value + "/pagos/success")
      && (p.notificationUrl.Some? <==> PublicUrl(env.backendUrl))
      && (p.notificationUrl.Some? ==> p.notificationUrl.value == env.backendUrl.value + WebhookPath)
  {
    if !IsConfigured(env.token) then Err(GatewayNotConfigured)
    else
      var front := env.frontendUrl;
      var back := env.backendUrl;
      Ok(Preference(
        if req.plan.Some? then PlanItem(req.plan.value) else PlaceholderItem,
        OrElse(req.descripcion, "Membresía de Gimnasio"),
        req.monto, "ARS", 1, req.payerEmail,
        ExternalRef(req.socio, req.plan, req.gym, "membresia"),
        if PublicUrl(front)
        then Some(BackUrls(front.value + "/pagos/success", front.value + "/pagos/failure", front.value + "/pagos/pending"))
        else None,
        if PublicUrl(front) then Some("approved") else None,
        if PublicUrl(back) then Some(back.value + WebhookPath) else None))
  }

  /** `generatePaymentLink`: the member and the plan are read by id alone
      (no gym filter); a missing one is an error; the price is the plan's
      and the payer e-mail falls back to a placeholder. */
  function GeneratePaymentLink(db: Db, env: Env, socio: Id, plan: Id, gym: Id): (r: Result<Preference>)
    ensures SocioById(db, socio).None? ==> r == Err(SocioMissing)
    ensures SocioById(db, socio).Some? && PlanById(db, plan).None? ==> r == Err(PlanMissing)
    ensures SocioById(db, socio).Some? && PlanById(db, plan).Some? && !IsConfigured(env.token) ==> r == Err(GatewayNotConfigured)
    ensures r.Ok? <==> SocioById(db, socio).Some? && PlanById(db, plan).Some? && IsConfigured(env.token)
    ensures r.Ok? ==>
      && SocioById(db, socio).Some? && PlanById(db, plan).Some?
      && r.value.unitPrice == PlanById(db, plan).value.precio
      && r.value.reference == ExternalRef(Some(socio), Some(plan), Some(gym), "membresia")
      && r.value.payerEmail == OrElse(SocioById(db, socio).value.email, "cliente@email.com")
  {
    match SocioById(db, socio)
    case None => Err(SocioMissing)
    case Some(s) =>
      match PlanById(db, plan)
      case None => Err(PlanMissing)
      case Some(p) =>
        CreatePreference(env, PreferenceRequest(
          Some(socio), Some(plan), Some(gym), p.precio,
          Some(p.nombre + " - " + s.nombre + " " + s.apellido),
          OrElse(s.email, "cliente@email.com")))
  }

  /** The webhook body: its `type` and `data.id`. */
  datatype Notification = Notification(kind: Option<string>, dataId: Option<string>)

  /** What the payment lookup returned for the notified payment. */
  datatype GatewayPayment = GatewayPayment(id: nat, status: string, amount: nat, reference: RefField)

  datatype WebhookOutcome =
    | NotProcessed(status: Option<string>)   // `{ processed: false[, status] }`
    | Duplicate                              // `{ processed: true, duplicate: true }`
    | Processed(paymentId: nat)              // `{ processed: true, paymentId }`

  const AutoNote: string := "Pago automático via Mercado Pago"

  /** Whether a payment row already records this gateway payment id. */
  predicate Recorded(ps: seq<Pago>, mpId: nat) {
    exists i :: 0 <= i < |ps| && ps[i].mpPaymentId == Some(mpId)
  }

  /** Number of payment rows that record this gateway payment id. */
  function RecordedCount(ps: seq<Pago>, mpId: nat): nat {
    Count(ps, (p: Pago) => p.mpPaymentId == Some(mpId))
  }

  /** The rows an approved, new gateway payment produces: a membership
      today..today+duration when the referenced plan exists (in any gym),
      then the completed payment linked to it. `None` when the member row
      does not exist: the first insert then fails its foreign key, and the
      demotion before it matches no row. */
  function Reconcile(db: Db, today: Day, p: GatewayPayment, socio: Id, plan: Option<Id>): (r: Option<Applied<Pago>>)
  {
    if !SocioExists(db, socio) then None
    else
      var found := if plan.Some? then PlanById(db, plan.value) else None;
      var linked := if found.Some? then
                      var a := Ledger.Open(db, socio, found.value.id, today, today + found.value.duracion);
                      Applied(a.db, Some(a.value.id))
                    else Applied(db, None);
      var db1 := linked.db;
      var pago := Pago(db1.nextId, socio, linked.value, p.amount, "mercadopago",
                       Some(p.id), Some(p.status), Completado, Some(AutoNote), today);
      Some(Applied(db1.(pagos := db1.pagos + [pago], nextId := db1.nextId + 1), pago))
  }

  /** `processWebhook`. Only a `payment` notification with an id is looked
      up; only an `approved` payment whose reference names a member is
      applied; a gateway id that is already recorded is acknowledged as a
      duplicate without writes. A thrown error is an `Err`. */
  function ProcessWebhook(db: Db, today: Day, n: Notification, fetched: Option<GatewayPayment>): (r: Result<Applied<WebhookOutcome>>)
    ensures n.kind != Some("payment") ==> r == Ok(Applied(db, NotProcessed(None)))
    ensures n.kind == Some("payment") && !Given(n.dataId) ==> r == Ok(Applied(db, NotProcessed(None)))
    ensures n.kind == Some("payment") && Given(n.dataId) ==>
      match fetched
      case None => r == Err(GatewayFailure)
      case Some(p) =>
        && (p.status != "approved" ==> r == Ok(Applied(db, NotProcessed(Some(p.status)))))
        && (p.status == "approved" && p.reference.Unparsable? ==> r == Ok(Applied(db, NotProcessed(None))))
        && (p.status == "approved" && p.reference.JsonNull? ==> r == Err(TypeError))
        && (p.status == "approved" && p.reference.Encoded? && p.reference.ref.socio.None? ==> r == Ok(Applied(db, NotProcessed(None))))
        && (p.status == "approved" && p.reference.Encoded? && p.reference.ref.socio.Some? && Recorded(db.pagos, p.id) ==>
              r == Ok(Applied(db, Duplicate)))
        && (p.status == "approved" && p.reference.Encoded? && p.reference.ref.socio.Some? && !Recorded(db.pagos, p.id) ==>
              && (r.Ok? <==> SocioExists(db, p.reference.ref.socio.value))
              && (r.Ok? ==> r.value.value == Processed(p.id))
              && (r.Err? ==> r.error == InvalidReference))
    ensures r.Ok? && r.value.value.Processed? ==>
      && n.kind == Some("payment") && Given(n.dataId) && fetched.Some?
      && var p := fetched.value;
      && p.status == "approved" && p.reference.Encoded? && p.reference.ref.socio.Some?
      && !Recorded(db.pagos, p.id)
      && r.value.value.paymentId == p.id
      && var db' := r.value.db;
      && |db'.pagos| == |db.pagos| + 1
      && db'.pagos[..|db.pagos|] == db.pagos
      && var row := db'.pagos[|db.pagos|];
      && row.socio == p.reference.ref.socio.value && row.monto == p.amount
      && row.metodo == "mercadopago" && row.estado == Completado
      && row.mpPaymentId == Some(p.id) && row.mpStatus == Some("approved")
      && RecordedCount(db'.pagos, p.id) == 1
      && db'.socios == db.socios && db'.planes == db.planes && db'.accesos == db.accesos
  {
    if n.kind != Some("payment") || !Given(n.dataId) then Ok(Applied(db, NotProcessed(None)))
    else
      match fetched
      case None => Err(GatewayFailure)
      case Some(p) =>
        if p.status != "approved" then Ok(Applied(db, NotProcessed(Some(p.status))))
        else
          match p.reference
          case Unparsable => Ok(Applied(db, NotProcessed(None)))
          case JsonNull => Err(TypeError)
          case Encoded(ref) =>
            if ref.socio.None? then Ok(Applied(db, NotProcessed(None)))
            else if Recorded(db.pagos, p.id) then Ok(Applied(db, Duplicate))
            else
              match Reconcile(db, today, p, ref.socio.value, ref.plan)
              case None => Err(InvalidReference)
              case Some(a) =>
                ReconcileRecordsOnce(db, today, p, ref.socio.value, ref.plan);
                Ok(Applied(a.db, Processed(p.id)))
  }

  /** The reconciler's writes. With the plan found: the member's former
      `activa` rows become `reemplazada` and a new `activa` membership
      today..today+duration is opened, whatever coverage the member had;
      the payment links to it. Without it: the membership table is
      untouched and the payment has no membership. */
  lemma ReconcileWrites(db: Db, today: Day, p: GatewayPayment, socio: Id, plan: Option<Id>)
    requires Reconcile(db, today, p, socio, plan).Some?
    ensures var a := Reconcile(db, today, p, socio, plan).value;
            var found := if plan.Some? then PlanById(db, plan.value) else None;
            && (found.Some? ==>
                  && Ledger.OpenedFrom(db, a.db.(pagos := db.pagos), a.db.membresias[|db.membresias|])
                  && var m := a.db.membresias[|db.membresias|];
                  && m.socio == socio && m.inicio == today && m.fin == today + found.value.duracion
                  && Ledger.SoleActive(a.db, m, |db.membresias|)
                  && a.value.membresia == Some(m.id))
            && (found.None? ==> a.db.membresias == db.membresias && a.value.membresia == None)
            && a.value.socio == socio && a.value.estado == Completado && a.value.metodo == "mercadopago"
            && a.value.mpPaymentId == Some(p.id) && a.value.monto == p.amount
            && a.db.pagos == db.pagos + [a.value]
  {
  }

  lemma ReconcileRecordsOnce(db: Db, today: Day, p: GatewayPayment, socio: Id, plan: Option<Id>)
    requires !Recorded(db.pagos, p.id)
    requires Reconcile(db, today, p, socio, plan).Some?
    ensures var a := Reconcile(db, today, p, socio, plan).value;
            && |a.db.pagos| == |db.pagos| + 1 && a.db.pagos[..|db.pagos|] == db.pagos
            && a.db.pagos[|db.pagos|] == a.value
            && RecordedCount(a.db.pagos, p.id) == 1
            && a.db.socios == db.socios && a.db.planes == db.planes && a.db.accesos == db.accesos
  {
    var a := Reconcile(db, today, p, socio, plan).value;
    assert a.db.pagos == db.pagos + [a.value];
    assert RecordedCount(db.pagos, p.id) == 0;
    CountAppend(db.pagos, a.value, (q: Pago) => q.mpPaymentId == Some(p.id));
    assert a.db.pagos[..|db.pagos|] == db.pagos;
  }

  /** Applying a gateway payment keeps every member at no more than one
      `activa` row; every other outcome writes nothing. */
  lemma WebhookPreservesSingleActive(db: Db, today: Day, n: Notification, fetched: Option<GatewayPayment>)
    requires Ledger.SingleActive(db.membresias)
    requires ProcessWebhook(db, today, n, fetched).Ok?
    ensures Ledger.SingleActive(ProcessWebhook(db, today, n, fetched).value.db.membresias)
    ensures !ProcessWebhook(db, today, n, fetched).value.value.Processed? ==> ProcessWebhook(db, today, n, fetched).value.db == db
  {
  }

  /** Sequential replay of a notification that was applied is a duplicate
      with no writes: the gateway id is recorded once and the membership
      opened once. */
  lemma WebhookReplayIsDuplicate(db: Db, today: Day, later: Day, n: Notification, p: GatewayPayment)
    requires ProcessWebhook(db, today, n, Some(p)).Ok?
    requires ProcessWebhook(db, today, n, Some(p)).value.value.Processed?
    ensures var db1 := ProcessWebhook(db, today, n, Some(p)).value.db;
            && ProcessWebhook(db1, later, n, Some(p)) == Ok(Applied(db1, Duplicate))
            && RecordedCount(db1.pagos, p.id) == 1
            && |db1.membresias| <= |db.membresias| + 1
  {
    var db1 := ProcessWebhook(db, today, n, Some(p)).value.db;
    var k := |db.pagos|;
    assert db1.pagos[k].mpPaymentId == Some(p.id);
    assert Recorded(db1.pagos, p.id);
  }

  /** The reference a preference carries reaches the reconciler intact: a
      first approved payment for a link of an existing member is recorded
      for that member and, when the plan still exists, opens a membership on
      that plan. */
  lemma PreferenceReferenceReachesReconciler(
    db: Db, env: Env, socio: Id, plan: Id, gym: Id, today: Day, dataId: string, mpId: nat, amount: nat)
    requires GeneratePaymentLink(db, env, socio, plan, gym).Ok?
    requires dataId != "" && !Recorded(db.pagos, mpId)
    ensures var pref := GeneratePaymentLink(db, env, socio, plan, gym).value;
            var r := ProcessWebhook(db, today, Notification(Some("payment"), Some(dataId)),
                                    Some(GatewayPayment(mpId, "approved", amount, Encoded(pref.reference))));
            && r.Ok? && r.value.value == Processed(mpId)
            && r.value.db.pagos[|db.pagos|].socio == socio
            && r.value.db.membresias[|db.membresias|].plan == Some(plan)
  {
    var pref := GeneratePaymentLink(db, env, socio, plan, gym).value;
    var gp := GatewayPayment(mpId, "approved", amount, Encoded(pref.reference));
    assert pref.reference == ExternalRef(Some(socio), Some(plan), Some(gym), "membresia");
    assert SocioById(db, socio).Some? && PlanById(db, plan).Some?;
    var k :| 0 <= k < |db.socios| && db.socios[k] == SocioById(db, socio).value;
    assert SocioExists(db, socio);
    ReconcileWrites(db, today, gp, socio, Some(plan));
  }
}

=== FILE: ledger.dfy ===
/** The membership ledger (`server/src/routes/membresias.routes.js`):
    opening a membership, editing one, renewing one. Opening is shared with
    the manual payment handler and the gateway webhook, which open a
    membership in exactly the same way. */
module Ledger {
  import opened Model

  /** The single-active invariant: no two rows of one member are both
      tagged `activa`. */
  predicate SingleActive(ms: seq<Membresia>) {
    forall i, j :: 0 <= i < |ms| && 0 <= j < |ms| && i != j && ms[i].socio == ms[j].socio && ms[i].estado == Activa ==> ms[j].estado != Activa
  }

  /** `SELECT * FROM membresias WHERE id = $1`, first row. */
  function MembresiaById(db: Db, id: Id): (r: Option<Membresia>)
    ensures r.Some? ==> r.value in db.membresias && r.value.id == id
    ensures r.None? <==> forall j :: 0 <= j < |db.membresias| ==> db.membresias[j].id != id
  {
    Find(db.membresias, (m: Membresia) => m.id == id)
  }

  /** `UPDATE membresias SET estado = 'reemplazada' WHERE socio_id = $1 AND
      estado = 'activa'`. */
  function Demote(ms: seq<Membresia>, socio: Id): (r: seq<Membresia>)
    ensures |r| == |ms|
    ensures forall i :: 0 <= i < |ms| && ms[i].socio == socio && ms[i].estado == Activa ==> r[i] == ms[i].(estado := Reemplazada)
    ensures forall i :: 0 <= i < |ms| && !(ms[i].socio == socio && ms[i].estado == Activa) ==> r[i] == ms[i]
  {
    seq(|ms|, i requires 0 <= i < |ms| =>
      if ms[i].socio == socio && ms[i].estado == Activa then ms[i].(estado := Reemplazada) else ms[i])
  }

  /** `UPDATE membresias SET estado = $tag WHERE id = $1`. */
  function Retag(ms: seq<Membresia>, id: Id, tag: Tag): (r: seq<Membresia>)
    ensures |r| == |ms|
    ensures forall i :: 0 <= i < |ms| && ms[i].id == id ==> r[i] == ms[i].(estado := tag)
    ensures forall i :: 0 <= i < |ms| && ms[i].id != id ==> r[i] == ms[i]
  {
    seq(|ms|, i requires 0 <= i < |ms| => if ms[i].id == id then ms[i].(estado := tag) else ms[i])
  }

  /** The writes of opening `m`: each former `activa` row of m's member is
      now `reemplazada`, `m` is appended, and nothing else changes. */
  predicate OpenedFrom(db: Db, db': Db, m: Membresia) {
    && |db'.membresias| == |db.membresias| + 1
    && db'.membresias[|db.membresias|] == m
    && (forall i :: 0 <= i < |db.membresias| && db.membresias[i].socio == m.socio && db.membresias[i].estado == Activa ==>
          db'.membresias[i] == db.membresias[i].(estado := Reemplazada))
    && (forall i :: 0 <= i < |db.membresias| && !(db.membresias[i].socio == m.socio && db.membresias[i].estado == Activa) ==>
          db'.membresias[i] == db.membresias[i])
    && db'.socios == db.socios && db'.planes == db.planes
    && db'.pagos == db.pagos && db'.accesos == db.accesos
  }

  /** After `m` is opened it is the member's one and only `activa` row. */
  predicate SoleActive(db': Db, m: Membresia, at: nat) {
    && at < |db'.membresias| && db'.membresias[at] == m && m.estado == Activa
    && forall i :: 0 <= i < |db'.membresias| && db'.membresias[i].socio == m.socio && db'.membresias[i].estado == Activa ==> i == at
  }

  /** Demote the member's `activa` rows, then insert a new `activa` row
      covering `inicio`..`fin` (the two queries every opening path issues). */
  function Open(db: Db, socio: Id, plan: Id, inicio: Day, fin: Day): (r: Applied<Membresia>)
    ensures r.value == Membresia(db.nextId, socio, Some(plan), inicio, fin, Activa)
    ensures OpenedFrom(db, r.db, r.value)
    ensures SoleActive(r.db, r.value, |db.membresias|)
    ensures r.db.nextId == db.nextId + 1
    ensures SingleActive(db.membresias) ==> SingleActive(r.db.membresias)
  {
    var m := Membresia(db.nextId, socio, Some(plan), inicio, fin, Activa);
    var ms' := Demote(db.membresias, socio) + [m];
    assert forall i :: 0 <= i < |db.membresias| ==> ms'[i] == Demote(db.membresias, socio)[i];
    Applied(db.(membresias := ms', nextId := db.nextId + 1), m)
  }

  datatype CreateRequest = CreateRequest(socio: Option<Id>, plan: Option<Id>, fechaInicio: Option<Day>)

  /** `POST /membresias`: assign a plan of the caller's gym to a member.
      The membership starts on `fechaInicio` (today when absent) and lasts
      the plan's `duracion_dias`; the member's former `activa` rows become
      `reemplazada`. The member's own gym is not checked; a member id with
      no row at all fails the insert's foreign key. */
  function Create(db: Db, gym: Id, today: Day, req: CreateRequest): (r: Result<Applied<Membresia>>)
    ensures req.socio.None? || req.plan.None? ==> r == Err(MissingFields)
    ensures req.socio.Some? && req.plan.Some? && PlanInGym(db, req.plan.value, gym).None? ==> r == Err(NotFound)
    ensures r.Ok? <==> req.socio.Some? && req.plan.Some? && PlanInGym(db, req.plan.value, gym).Some? && SocioExists(db, req.socio.value)
    ensures r.Ok? ==>
      var m := r.value.value;
      var p := PlanInGym(db, req.plan.value, gym).value;
      && m.socio == req.socio.value && m.plan == Some(p.id) && m.estado == Activa
      && m.inicio == req.fechaInicio.GetOr(today)
      && m.fin == m.inicio + p.duracion
      && OpenedFrom(db, r.value.db, m)
      && SoleActive(r.value.db, m, |db.membresias|)
  {
    if req.socio.None? || req.plan.None? then Err(MissingFields)
    else
      match PlanInGym(db, req.plan.value, gym)
      case None => Err(NotFound)
      case Some(p) =>
        if !SocioExists(db, req.socio.value) then Err(InvalidReference)
        else
          var inicio := req.fechaInicio.GetOr(today);
          Ok(Open(db, req.socio.value, p.id, inicio, inicio + p.duracion))
  }

  /** Opening a membership keeps every member at no more than one `activa`
      row. */
  lemma CreatePreservesSingleActive(db: Db, gym: Id, today: Day, req: CreateRequest)
    requires SingleActive(db.membresias)
    requires Create(db, gym, today, req).Ok?
    ensures SingleActive(Create(db, gym, today, req).value.db.membresias)
  {
  }

  /** `PUT /membresias/:id`: overwrite `fecha_fin` and/or `estado` of the
      row with that id (`COALESCE`: absent fields keep their value). The
      statement filters on the id alone, not on the caller's gym. */
  function Update(db: Db, id: Id, fechaFin: Option<Day>, estado: Option<Tag>): (r: Result<Applied<Membresia>>)
    ensures r.Err? <==> forall i :: 0 <= i < |db.membresias| ==> db.membresias[i].id != id
    ensures r.Err? ==> r.error == NotFound
    ensures r.Ok? ==> |r.value.db.membresias| == |db.membresias|
    ensures r.Ok? ==> forall i :: 0 <= i < |db.membresias| && db.membresias[i].id != id ==>
      r.value.db.membresias[i] == db.membresias[i]
    ensures r.Ok? ==> forall i :: 0 <= i < |db.membresias| && db.membresias[i].id == id ==>
      var old_ := db.membresias[i];
      var new_ := r.value.db.membresias[i];
      && new_.fin == fechaFin.GetOr(old_.fin)
      && new_.estado == estado.GetOr(old_.estado)
      && new_.(fin := old_.fin, estado := old_.estado) == old_
    ensures r.Ok? ==> r.value.value.id == id && r.value.value in r.value.db.membresias
    ensures r.Ok? ==> r.value.db == db.(membresias := r.value.db.membresias)
  {
    var ms' := seq(|db.membresias|, i requires 0 <= i < |db.membresias| =>
      var m := db.membresias[i];
      if m.id == id then m.(fin := fechaFin.GetOr(m.fin), estado := estado.GetOr(m.estado)) else m);
    match FirstIndex(db.membresias, (m: Membresia) => m.id == id)
    case None => Err(NotFound)
    case Some(k) => Ok(Applied(db.(membresias := ms'), ms'[k]))
  }

  /** An edit that tags a second row `activa` leaves the member with two
      `activa` rows: the edit endpoint does not keep the invariant. */
  lemma UpdateCanBreakSingleActive()
    ensures var db := Db([], [], [Membresia(1, 9, None, 0, 30, Activa), Membresia(2, 9, None, 0, 10, Reemplazada)], [], [], 3);
            && SingleActive(db.membresias)
            && Update(db, 2, None, Some(Activa)).Ok?
            && !SingleActive(Update(db, 2, None, Some(Activa)).value.db.membresias)
  {
    var db := Db([], [], [Membresia(1, 9, None, 0, 30, Activa), Membresia(2, 9, None, 0, 10, Reemplazada)], [], [], 3);
    var ms' := Update(db, 2, None, Some(Activa)).value.db.membresias;
    assert ms'[0].estado == Activa && ms'[1].estado == Activa;
  }

  /** The plan a renewal uses: the requested one, else the source row's. */
  function RenewalPlan(cur: Membresia, planId: Option<Id>): Option<Id> {
    if planId.Some? then planId else cur.plan
  }

  /** First day of a renewal: the old end date if it is still ahead,
      otherwise today. */
  function RenewalStart(cur: Membresia, today: Day): (d: Day)
    ensures d >= cur.fin && d >= today
    ensures d == cur.fin || d == today
  {
    if cur.fin > today then cur.fin else today
  }

  /** `POST /membresias/:id/renovar` as written: the row is looked up by id
      alone (any gym); the plan is the requested one or the row's own, read
      without a gym filter and without checking that it exists (a missing
      plan row makes the handler fail on `rows[0].duracion_dias`, before any
      write). Only the source row is tagged `renovada`; a new `activa` row
      starting at max(old end, today) is inserted. */
  function Renew(db: Db, today: Day, id: Id, planId: Option<Id>): (r: Result<Applied<Membresia>>)
    ensures MembresiaById(db, id).None? <==> r == Err(NotFound)
    ensures r.Ok? <==>
      && MembresiaById(db, id).Some?
      && RenewalPlan(MembresiaById(db, id).value, planId).Some?
      && PlanById(db, RenewalPlan(MembresiaById(db, id).value, planId).value).Some?
    ensures r.Ok? ==>
      var cur := MembresiaById(db, id).value;
      var m := r.value.value;
      var ms := db.membresias;
      var ms' := r.value.db.membresias;
      && m.socio == cur.socio && m.estado == Activa && m.id == db.nextId
      && m.plan == RenewalPlan(cur, planId) && m.plan.Some? && PlanById(db, m.plan.value).Some?
      && m.inicio >= cur.fin && m.inicio >= today && (m.inicio == cur.fin || m.inicio == today)
      && m.fin == m.inicio + PlanById(db, m.plan.value).value.duracion
      && m.fin >= cur.fin + PlanById(db, m.plan.value).value.duracion
      && |ms'| == |ms| + 1 && ms'[|ms|] == m
      && (forall i :: 0 <= i < |ms| && ms[i].id == id ==> ms'[i] == ms[i].(estado := Renovada))
      && (forall i :: 0 <= i < |ms| && ms[i].id != id ==> ms'[i] == ms[i])
      && r.value.db == db.(membresias := ms', nextId := db.nextId + 1)
    ensures MembresiaById(db, id).Some? ==>
      var p := RenewalPlan(MembresiaById(db, id).value, planId);
      (r == Err(TypeError) <==> p.None? || PlanById(db, p.value).None?)
  {
    match MembresiaById(db, id)
    case None => Err(NotFound)
    case Some(cur) =>
      var newPlan := RenewalPlan(cur, planId);
      var plan := if newPlan.Some? then PlanById(db, newPlan.value) else None;
      if plan.None? then Err(TypeError)
      else
        var start := RenewalStart(cur, today);
        var m := Membresia(db.nextId, cur.socio, newPlan, start, start + plan.value.duracion, Activa);
        var ms' := Retag(db.membresias, id, Renovada) + [m];
        assert forall i :: 0 <= i < |db.membresias| ==> ms'[i] == Retag(db.membresias, id, Renovada)[i];
        Ok(Applied(db.(membresias := ms', nextId := db.nextId + 1), m))
  }

  /** Renewal never loses paid time: the new membership starts no earlier
      than the renewed one ends, and ends at least a full plan duration
      after it. */
  lemma RenewNeverShortens(db: Db, today: Day, id: Id, planId: Option<Id>)
    requires Renew(db, today, id, planId).Ok?
    ensures var cur := MembresiaById(db, id).value;
            var m := Renew(db, today, id, planId).value.value;
            m.inicio >= cur.fin && m.fin - m.inicio == PlanById(db, m.plan.value).value.duracion
  {
  }

  /** As written, renewal demotes only the source row: another `activa`
      row of the member stays `activa` next to the new one. */
  lemma {:induction false} RenewKeepsOtherActiveRow(db: Db, today: Day, id: Id, planId: Option<Id>, j: nat)
    requires Renew(db, today, id, planId).Ok?
    requires j < |db.membresias|
    requires db.membresias[j].id != id && db.membresias[j].estado == Activa
    requires db.membresias[j].socio == MembresiaById(db, id).value.socio
    ensures !SingleActive(Renew(db, today, id, planId).value.db.membresias)
  {
    var ms' := Renew(db, today, id, planId).value.db.membresias;
    var n := |db.membresias|;
    assert ms'[j] == db.membresias[j];
    assert ms'[n].socio == ms'[j].socio && ms'[n].estado == Activa && ms'[j].estado == Activa && n != j;
  }

  /** Renewing the same row twice (a double submit) leaves two `activa`
      rows for one member. */
  lemma RenewTwiceLeavesTwoActive()
    ensures var db := Db([], [Plan(5, 1, "Mensual", None, 100, 30, true)],
                         [Membresia(1, 9, Some(5), 0, 30, Activa)], [], [], 10);
            && SingleActive(db.membresias)
            && Renew(db, 20, 1, None).Ok?
            && Renew(Renew(db, 20, 1, None).value.db, 20, 1, None).Ok?
            && !SingleActive(Renew(Renew(db, 20, 1, None).value.db, 20, 1, None).value.db.membresias)
  {
    var db := Db([], [Plan(5, 1, "Mensual", None, 100, 30, true)],
                 [Membresia(1, 9, Some(5), 0, 30, Activa)], [], [], 10);
    var db1 := Renew(db, 20, 1, None).value.db;
    assert db1.membresias[1].id == 10 && db1.membresias[1].estado == Activa;
    assert MembresiaById(db1, 1).Some?;
    RenewKeepsOtherActiveRow(db1, 20, 1, None, 1);
  }

  /** Renewal with the evident intent of the single-active rule: the source
      row is tagged `renovada` and every other `activa` row of the member
      `reemplazada`, then the successor is inserted. Dates and plan choice
      are those of `Renew`. */
  function RenewCorrected(db: Db, today: Day, id: Id, planId: Option<Id>): (r: Result<Applied<Membresia>>)
    ensures MembresiaById(db, id).None? <==> r == Err(NotFound)
    ensures r.Ok? <==> Renew(db, today, id, planId).Ok?
    ensures r.Ok? ==> r.value.value == Renew(db, today, id, planId).value.value
    ensures r.Ok? ==> SoleActive(r.value.db, r.value.value, |db.membresias|)
    ensures r.Ok? ==> forall i :: 0 <= i < |db.membresias| && db.membresias[i].id == id ==>
      r.value.db.membresias[i] == db.membresias[i].(estado := Renovada)
    ensures r.Ok? && SingleActive(db.membresias) ==> SingleActive(r.value.db.membresias)
  {
    match MembresiaById(db, id)
    case None => Err(NotFound)
    case Some(cur) =>
      var newPlan := RenewalPlan(cur, planId);
      var plan := if newPlan.Some? then PlanById(db, newPlan.value) else None;
      if plan.None? then Err(TypeError)
      else
        var start := RenewalStart(cur, today);
        var retagged := db.(membresias := Retag(db.membresias, id, Renovada));
        RetagKeepsSingleActive(db.membresias, id, Renovada);
        Ok(Open(retagged, cur.socio, plan.value.id, start, start + plan.value.duracion))
  }

  /** Retagging rows away from `activa` cannot create a second `activa` row. */
  lemma RetagKeepsSingleActive(ms: seq<Membresia>, id: Id, tag: Tag)
    requires tag != Activa
    ensures SingleActive(ms) ==> SingleActive(Retag(ms, id, tag))
  {
  }
}

=== FILE: members.dfy ===
/** Member routes (`server/src/routes/socios.routes.js`): the derived
    `estado_actual` of the member list and its `estado` filters, the page
    count, member creation and partial update under the per-gym unique DNI,
    and the QR issued for check-in. */
module Members {
  import opened Model
  import Coverage
  import Access

  /** The list's `estado_actual` column. */
  datatype Estado = SinMembresia | Vencido | PorVencer | Activo

  /** Whether the member has any membership row at all. */
  predicate HasRow(ms: seq<Membresia>, socio: Id) {
    exists i :: 0 <= i < |ms| && ms[i].socio == socio
  }

  /** Whether some row of the member ends on or after `day`. */
  predicate EndsFrom(ms: seq<Membresia>, socio: Id, day: Day) {
    exists i :: 0 <= i < |ms| && ms[i].socio == socio && ms[i].fin >= day
  }

  /** `estado_actual`: read off the end date of the member's latest row of
      ANY tag, so a `reemplazada` or `renovada` row counts like an `activa`
      one. Stated without the lookup: no row at all; every row ended before
      today; some row reaches today but none goes past the seven-day window;
      some row goes past the window. */
  function EstadoActual(ms: seq<Membresia>, socio: Id, today: Day): (e: Estado)
    ensures e == SinMembresia <==> !HasRow(ms, socio)
    ensures e == Vencido <==> HasRow(ms, socio) && !EndsFrom(ms, socio, today)
    ensures e == PorVencer <==> EndsFrom(ms, socio, today) && !EndsFrom(ms, socio, today + Coverage.ExpiryWindow + 1)
    ensures e == Activo <==> EndsFrom(ms, socio, today + Coverage.ExpiryWindow + 1)
  {
    match Coverage.Latest(ms, socio, false)
    case None => SinMembresia
    case Some(m) =>
      assert exists i :: 0 <= i < |ms| && ms[i] == m;
      if m.fin < today then Vencido
      else if m.fin <= today + Coverage.ExpiryWindow then PorVencer
      else Activo
  }

  /** The status ignores the tag: a member whose only row was replaced, and
      so is not covered, still reads `activo`. */
  lemma EstadoIgnoresTag()
    ensures var ms := [Membresia(1, 7, None, 0, 60, Reemplazada)];
            EstadoActual(ms, 7, 10) == Activo && !Coverage.HasInForce(ms, 7, 10)
  {
    var ms := [Membresia(1, 7, None, 0, 60, Reemplazada)];
    assert ms[0].fin >= 10 + Coverage.ExpiryWindow + 1;
  }

  /** The `estado` query parameter; any other value applies no filter. */
  datatype EstadoFilter = FiltroActivo | FiltroVencido | FiltroPorVencer | SinFiltro

  /** The `EXISTS` clauses of the filters: `activo` and `vencido` ask whether
      an `activa` row reaches today, `por_vencer` whether one ends inside the
      window. */
  predicate Matches(ms: seq<Membresia>, s: Socio, today: Day, f: EstadoFilter) {
    match f
    case FiltroActivo => Coverage.HasInForce(ms, s.id, today)
    case FiltroVencido => !Coverage.HasInForce(ms, s.id, today)
    case FiltroPorVencer =>
      exists i :: 0 <= i < |ms| && ms[i].socio == s.id && ms[i].estado == Activa
                  && today <= ms[i].fin <= today + Coverage.ExpiryWindow
    case SinFiltro => true
  }

  function MatchesFn(ms: seq<Membresia>, today: Day, f: EstadoFilter): Socio -> bool {
    (s: Socio) => Matches(ms, s, today, f)
  }

  function InGymFn(gym: Id): Socio -> bool {
    (s: Socio) => s.gym == gym
  }

  /** The members of the gym, in table order. */
  function Roster(db: Db, gym: Id): seq<Socio> {
    Filter(db.socios, InGymFn(gym))
  }

  /** `GET /socios?estado=…`, before ordering and paging: the members of
      the caller's gym that pass the filter. */
  function ListSocios(db: Db, gym: Id, today: Day, f: EstadoFilter): (r: seq<Socio>)
    ensures forall i :: 0 <= i < |r| ==> r[i] in db.socios && r[i].gym == gym && Matches(db.membresias, r[i], today, f)
    ensures forall i :: 0 <= i < |db.socios| && db.socios[i].gym == gym && Matches(db.membresias, db.socios[i], today, f) ==>
      db.socios[i] in r
  {
    var roster := Roster(db, gym);
    var r := Filter(roster, MatchesFn(db.membresias, today, f));
    forall i | 0 <= i < |db.socios| && db.socios[i].gym == gym && Matches(db.membresias, db.socios[i], today, f)
      ensures db.socios[i] in r
    {
      assert InGymFn(gym)(db.socios[i]);
      assert db.socios[i] in roster;
    }
    r
  }

  /** `activo` and `vencido` are complements: every member of the gym is
      listed by exactly one of them, so their totals add up to the gym's
      roster. */
  lemma ActivoVencidoPartition(db: Db, gym: Id, today: Day)
    ensures |ListSocios(db, gym, today, FiltroActivo)| + |ListSocios(db, gym, today, FiltroVencido)| == |Roster(db, gym)|
    ensures |ListSocios(db, gym, today, SinFiltro)| == |Roster(db, gym)|
  {
    var roster := Roster(db, gym);
    FilterSplits(roster, MatchesFn(db.membresias, today, FiltroActivo), MatchesFn(db.membresias, today, FiltroVencido));
    FilterKeepsAll(roster, MatchesFn(db.membresias, today, SinFiltro));
  }

  lemma {:induction false} FilterKeepsAll<T>(s: seq<T>, p: T -> bool)
    requires forall i :: 0 <= i < |s| ==> p(s[i])
    ensures Filter(s, p) == s
  {
    if |s| > 0 {
      FilterKeepsAll(s[1..], p);
    }
  }

  /** Every member listed as about to expire is also listed as active. */
  lemma PorVencerWithinActivo(db: Db, gym: Id, today: Day)
    ensures forall s :: s in ListSocios(db, gym, today, FiltroPorVencer) ==> s in ListSocios(db, gym, today, FiltroActivo)
  {
    var pv := ListSocios(db, gym, today, FiltroPorVencer);
    forall s | s in pv ensures s in ListSocios(db, gym, today, FiltroActivo) {
      var k :| 0 <= k < |pv| && pv[k] == s;
      var i :| 0 <= i < |db.membresias| && db.membresias[i].socio == s.id && db.membresias[i].estado == Activa
               && today <= db.membresias[i].fin <= today + Coverage.ExpiryWindow;
      assert Coverage.InForce(db.membresias[i], today);
      var j :| 0 <= j < |db.socios| && db.socios[j] == s;
    }
  }

  /** `Math.ceil(total / limit)`: the number of pages of `limit` rows that
      hold `total` rows. A zero limit divides by zero and yields no finite
      page count. */
  function PageCount(total: nat, limit: nat): (pages: Option<nat>)
    ensures pages.None? <==> limit == 0
    ensures pages.Some? ==> pages.value * limit >= total
    ensures pages.Some? && pages.value > 0 ==> (pages.value - 1) * limit < total
  {
    if limit == 0 then None
    else Some((total + limit - 1) / limit)
  }

  datatype SocioRequest = SocioRequest(
    dni: Option<string>, nombre: Option<string>, apellido: Option<string>,
    email: Option<string>, telefono: Option<string>, fechaNacimiento: Option<Day>,
    direccion: Option<string>, notas: Option<string>)

  /** Whether some member of `gym` other than the row at `skip` has `dni`
      (the `UNIQUE(gimnasio_id, dni)` constraint). */
  predicate DniTaken(socios: seq<Socio>, gym: Id, dni: string, skip: int) {
    exists j :: 0 <= j < |socios| && j != skip && socios[j].gym == gym && socios[j].dni == dni
  }

  /** No two members of one gym share a DNI. */
  predicate UniqueDni(socios: seq<Socio>) {
    forall i, j :: 0 <= i < j < |socios| && socios[i].gym == socios[j].gym ==> socios[i].dni != socios[j].dni
  }

  /** `POST /socios`: DNI, first and last name are required (an empty
      string is missing); a DNI already used in the gym is a unique
      violation; the new member is active. */
  function CreateSocio(db: Db, gym: Id, today: Day, req: SocioRequest): (r: Result<Applied<Socio>>)
    ensures !Given(req.dni) || !Given(req.nombre) || !Given(req.apellido) ==> r == Err(MissingFields)
    ensures Given(req.dni) && Given(req.nombre) && Given(req.apellido) && DniTaken(db.socios, gym, req.dni.value, -1) ==>
      r == Err(DuplicateKey)
    ensures r.Ok? <==> Given(req.dni) && Given(req.nombre) && Given(req.apellido) && !DniTaken(db.socios, gym, req.dni.value, -1)
    ensures r.Ok? ==>
      var s := r.value.value;
      && s.id == db.nextId && s.gym == gym && s.activo && s.creado == today
      && Some(s.dni) == req.dni && Some(s.nombre) == req.nombre && Some(s.apellido) == req.apellido
      && s.email == req.email && s.telefono == req.telefono && s.fechaNacimiento == req.fechaNacimiento
      && r.value.db == db.(socios := db.socios + [s], nextId := db.nextId + 1)
    ensures UniqueDni(db.socios) && r.Ok? ==> UniqueDni(r.value.db.socios)
  {
    if !Given(req.dni) || !Given(req.nombre) || !Given(req.apellido) then Err(MissingFields)
    else if DniTaken(db.socios, gym, req.dni.value, -1) then Err(DuplicateKey)
    else
      var s := Socio(db.nextId, gym, req.dni.value, req.nombre.value, req.apellido.value, req.email,
                     req.telefono, req.fechaNacimiento, req.direccion, req.notas, true, today);
      Ok(Applied(db.(socios := db.socios + [s], nextId := db.nextId + 1), s))
  }

  datatype SocioPatch = SocioPatch(
    dni: Option<string>, nombre: Option<string>, apellido: Option<string>,
    email: Option<string>, telefono: Option<string>, fechaNacimiento: Option<Day>,
    direccion: Option<string>, notas: Option<string>, activo: Option<bool>)

  function ApplySocioPatch(s: Socio, p: SocioPatch): Socio {
    s.(dni := p.dni.GetOr(s.dni), nombre := p.nombre.GetOr(s.nombre), apellido := p.apellido.GetOr(s.apellido),
       email := if p.email.Some? then p.email else s.email,
       telefono := if p.telefono.Some? then p.telefono else s.telefono,
       fechaNacimiento := if p.fechaNacimiento.Some? then p.fechaNacimiento else s.fechaNacimiento,
       direccion := if p.direccion.Some? then p.direccion else s.direccion,
       notas := if p.notas.Some? then p.notas else s.notas,
       activo := p.activo.GetOr(s.activo))
  }

  /** `PUT /socios/:id`: the member of the caller's gym takes every field
      the request carries (an empty string included) and keeps the others;
      a member of another gym is NotFound; a DNI already used by another
      member of the gym is a unique violation. */
  function UpdateSocio(db: Db, gym: Id, id: Id, patch: SocioPatch): (r: Result<Applied<Socio>>)
    ensures SocioInGym(db, id, gym).None? <==> r == Err(NotFound)
    ensures r.Err? ==> r.error == NotFound || r.error == DuplicateKey
    ensures r == Err(DuplicateKey) <==>
      var k := FirstIndex(db.socios, (s: Socio) => s.id == id && s.gym == gym);
      k.Some? && DniTaken(db.socios, gym, patch.dni.GetOr(db.socios[k.value].dni), k.value)
    ensures r.Ok? <==>
      var k := FirstIndex(db.socios, (s: Socio) => s.id == id && s.gym == gym);
      k.Some? && !DniTaken(db.socios, gym, patch.dni.GetOr(db.socios[k.value].dni), k.value)
    ensures r.Ok? ==>
      var k := FirstIndex(db.socios, (s: Socio) => s.id == id && s.gym == gym);
      && k.Some?
      && r.value.db == db.(socios := db.socios[k.value := r.value.value])
      && r.value.value == ApplySocioPatch(db.socios[k.value], patch)
    ensures r.Ok? ==>
      var n := r.value.value;
      && n.id == id && n.gym == gym
      && (patch.dni.Some? ==> n.dni == patch.dni.value)
      && (patch.nombre.Some? ==> n.nombre == patch.nombre.value)
      && (patch.apellido.Some? ==> n.apellido == patch.apellido.value)
      && (patch.activo.Some? ==> n.activo == patch.activo.value)
    ensures UniqueDni(db.socios) && r.Ok? ==> UniqueDni(r.value.db.socios)
  {
    match FirstIndex(db.socios, (s: Socio) => s.id == id && s.gym == gym)
    case None => Err(NotFound)
    case Some(k) =>
      var n := ApplySocioPatch(db.socios[k], patch);
      if DniTaken(db.socios, gym, n.dni, k) then Err(DuplicateKey)
      else
        var socios' := db.socios[k := n];
        assert UniqueDni(db.socios) ==> UniqueDni(socios') by {
          if UniqueDni(db.socios) {
            forall i, j | 0 <= i < j < |socios'| && socios'[i].gym == socios'[j].gym
              ensures socios'[i].dni != socios'[j].dni
            {
              if i != k && j != k {
                assert socios'[i] == db.socios[i] && socios'[j] == db.socios[j];
              }
            }
          }
        }
        Ok(Applied(db.(socios := socios'), n))
  }

  /** A field absent from the update keeps its value. */
  lemma UpdateKeepsAbsentFields(db: Db, gym: Id, id: Id, patch: SocioPatch)
    requires UpdateSocio(db, gym, id, patch).Ok?
    ensures var o := SocioInGym(db, id, gym).value;
            var n := UpdateSocio(db, gym, id, patch).value.value;
            && (patch.dni.None? ==> n.dni == o.dni)
            && (patch.nombre.None? ==> n.nombre == o.nombre)
            && (patch.apellido.None? ==> n.apellido == o.apellido)
            && (patch.email.None? ==> n.email == o.email)
            && (patch.telefono.None? ==> n.telefono == o.telefono)
            && (patch.fechaNacimiento.None? ==> n.fechaNacimiento == o.fechaNacimiento)
            && (patch.direccion.None? ==> n.direccion == o.direccion)
            && (patch.notas.None? ==> n.notas == o.notas)
            && (patch.activo.None? ==> n.activo == o.activo)
  {
    var k := FirstIndex(db.socios, (s: Socio) => s.id == id && s.gym == gym).value;
    assert SocioInGym(db, id, gym) == Some(db.socios[k]) by {
      FindIsFirst(db.socios, (s: Socio) => s.id == id && s.gym == gym);
    }
  }

  lemma FindIsFirst<T>(s: seq<T>, p: T -> bool)
    requires FirstIndex(s, p).Some?
    ensures Find(s, p) == Some(s[FirstIndex(s, p).value])
  {
  }

  /** The QR payload: member id, the member's gym, issue time. */
  datatype QrPayload = QrPayload(id: Id, gym: Id, ts: int)

  /** The QR issue answer: payload, plan id and end date of the latest
      `activa` membership, and whether it covers today. */
  datatype QrCard = QrCard(payload: QrPayload, planId: Option<Id>, validHasta: Option<Day>, membresiaActiva: bool)

  /** `GET /socios/:id/qr`: only for a member of the caller's gym. */
  function IssueQr(db: Db, gym: Id, today: Day, id: Id, ts: int): (r: Result<QrCard>)
    ensures r.Err? <==> SocioInGym(db, id, gym).None?
    ensures r.Err? ==> r.error == NotFound
    ensures r.Ok? ==> r.value.payload == QrPayload(id, gym, ts)
    ensures r.Ok? ==> (r.value.membresiaActiva <==> Coverage.HasInForce(db.membresias, id, today))
    ensures r.Ok? ==> (r.value.validHasta.Some? <==>
                         exists i :: 0 <= i < |db.membresias| && Coverage.Candidate(db.membresias[i], id, true))
    ensures r.Ok? && r.value.validHasta.Some? ==> Coverage.IsLatestEnd(db.membresias, id, true, r.value.validHasta.value)
  {
    match SocioInGym(db, id, gym)
    case None => Err(NotFound)
    case Some(s) =>
      Coverage.MembresiaActivaIff(db.membresias, id, today);
      var latest := Coverage.Latest(db.membresias, id, true);
      assert latest.Some? ==> exists i :: 0 <= i < |db.membresias| && db.membresias[i] == latest.value;
      Ok(QrCard(QrPayload(s.id, s.gym, ts),
                if latest.Some? then latest.value.plan else None,
                if latest.Some? then Some(latest.value.fin) else None,
                Coverage.MembresiaActiva(db.membresias, id, today)))
  }

  /** The payload as the scanner decodes it. */
  function Decoded(p: QrPayload): Access.QrData {
    Access.QrData(Some(p.id), Some(p.gym), p.ts)
  }

  /** Issue and validation agree: a QR issued by a gym validates at that
      gym on the same day and reports the same coverage. */
  lemma IssuedQrValidates(db: Db, gym: Id, today: Day, id: Id, ts: int)
    requires IssueQr(db, gym, today, id, ts).Ok?
    ensures Access.ValidateQr(db, gym, today, Some(Decoded(IssueQr(db, gym, today, id, ts).value.payload))).Ok?
    ensures Access.ValidateQr(db, gym, today, Some(Decoded(IssueQr(db, gym, today, id, ts).value.payload))).value.value.admission.membresiaActiva
        == IssueQr(db, gym, today, id, ts).value.membresiaActiva
  {
  }
}

=== FILE: model.dfy ===
/** Data model of the gym-management core: the rows of the five tables the
    membership, payment and access handlers read and write, the outcome of a
    handler, and the sequence helpers every handler uses to look rows up.

    Tables are sequences of rows in insertion order. Row ids stand for the
    database's generated UUIDs: a handler that inserts takes `nextId` and
    advances it. Dates are calendar days numbered by integers. */
module Model {

  type Id = nat
  type Day = int

  datatype Option<+T> = None | Some(value: T) {
    /** The value, or `default` when absent (SQL COALESCE, JS `??`). */
    function GetOr(default: T): T {
      match this
      case Some(v) => v
      case None => default
    }
  }

  /** Stored lifecycle tag of a membership (`membresias.estado`). The
      handlers write `activa`, `reemplazada` and `renovada`; an edit may
      store any other label. */
  datatype Tag = Activa | Reemplazada | Renovada | OtherTag(name: string)

  datatype Membresia = Membresia(
    id: Id, socio: Id, plan: Option<Id>, inicio: Day, fin: Day, estado: Tag)

  /** Internal payment status (`pagos.estado`). */
  datatype PagoEstado = Completado | Pendiente | Cancelado

  /** A payment row. `mpPaymentId` is the gateway's payment id, present only
      on rows recorded from a gateway notification; `fecha` is the day the
      row was written. */
  datatype Pago = Pago(
    id: Id, socio: Id, membresia: Option<Id>, monto: nat, metodo: string,
    mpPaymentId: Option<nat>, mpStatus: Option<string>, estado: PagoEstado,
    notas: Option<string>, fecha: Day)

  /** A check-in. `salida` is the check-out day, absent while the session is
      open. */
  datatype Acceso = Acceso(id: Id, socio: Id, entrada: Day, salida: Option<Day>, metodo: string)

  datatype Socio = Socio(
    id: Id, gym: Id, dni: string, nombre: string, apellido: string,
    email: Option<string>, telefono: Option<string>, fechaNacimiento: Option<Day>,
    direccion: Option<string>, notas: Option<string>, activo: bool, creado: Day)

  datatype Plan = Plan(
    id: Id, gym: Id, nombre: string, descripcion: Option<string>,
    precio: nat, duracion: int, activo: bool)

  datatype Db = Db(
    socios: seq<Socio>, planes: seq<Plan>, membresias: seq<Membresia>,
    pagos: seq<Pago>, accesos: seq<Acceso>, nextId: Id)

  /** Why a handler answered with an error instead of a result. */
  datatype Error =
    | MissingFields                 // 400: a required body field is absent or falsy
    | NotFound                      // 404: no row, or a row of another gym
    | AlreadyEntered(accesoId: Id)  // 400: an open check-in of today exists
    | PlanInUse                     // 400: the plan is referenced by an `activa` membership
    | InvalidReference              // 400: foreign-key violation (SQLSTATE 23503)
    | DuplicateKey                  // 400: unique violation (SQLSTATE 23505)
    | TypeError                     // 500: a property read on a row that does not exist
    | GatewayNotConfigured          // the Mercado Pago access token is missing or too short
    | GatewayFailure                // the Mercado Pago HTTP call failed
    | SocioMissing                  // thrown by the payment-link generator
    | PlanMissing                   // thrown by the payment-link generator
    | Unauthorized                  // 401: no `Bearer` token, or one that does not verify

  datatype Result<+T> = Ok(value: T) | Err(error: Error)

  /** A successful handler: the database after its writes and its answer.
      An `Err` carries no database: the handlers modelled here fail before
      their first write. */
  datatype Applied<+T> = Applied(db: Db, value: T)

  /** JavaScript truthiness of an optional string body field. */
  predicate Given(s: Option<string>) {
    s.Some? && s.value != ""
  }

  /** `x || fallback` on an optional string. */
  function OrElse(s: Option<string>, fallback: string): (r: string)
    ensures Given(s) ==> r == s.value
    ensures !Given(s) ==> r == fallback
  {
    if Given(s) then s.value else fallback
  }

  /** Index of the first element satisfying `p` (a `SELECT … LIMIT 1` in
      table order). */
  function FirstIndex<T>(s: seq<T>, p: T -> bool): (r: Option<nat>)
    ensures r.Some? ==> r.value < |s| && p(s[r.value])
    ensures r.Some? ==> forall j :: 0 <= j < r.value ==> !p(s[j])
    ensures r.None? <==> forall j :: 0 <= j < |s| ==> !p(s[j])
  {
    if |s| == 0 then None
    else if p(s[0]) then Some(0)
    else
      match FirstIndex(s[1..], p)
      case None => None
      case Some(k) => Some(k + 1)
  }

  /** The index of the last element satisfying `p`, if any. */
  function LastIndex<T>(s: seq<T>, p: T -> bool): (r: Option<nat>)
    ensures r.Some? ==> r.value < |s| && p(s[r.value])
    ensures r.Some? ==> forall j :: r.value < j < |s| ==> !p(s[j])
    ensures r.None? <==> forall j :: 0 <= j < |s| ==> !p(s[j])
  {
    if |s| == 0 then None
    else if p(s[|s| - 1]) then Some(|s| - 1)
    else
      assert forall j :: 0 <= j < |s| - 1 ==> s[j] == s[..|s| - 1][j];
      LastIndex(s[..|s| - 1], p)
  }

  /** The first element satisfying `p`, if any. */
  function Find<T>(s: seq<T>, p: T -> bool): (r: Option<T>)
    ensures r.Some? ==> r.value in s && p(r.value)
    ensures r.None? <==> forall j :: 0 <= j < |s| ==> !p(s[j])
  {
    match FirstIndex(s, p)
    case Some(k) => Some(s[k])
    case None => None
  }

  /** The elements satisfying `p`, in order (a `WHERE` clause). */
  function Filter<T>(s: seq<T>, p: T -> bool): (r: seq<T>)
    ensures |r| <= |s|
    ensures forall i :: 0 <= i < |r| ==> r[i] in s && p(r[i])
    ensures forall i :: 0 <= i < |s| && p(s[i]) ==> s[i] in r
  {
    if |s| == 0 then []
    else if p(s[0]) then [s[0]] + Filter(s[1..], p)
    else Filter(s[1..], p)
  }

  /** A `WHERE p` and a `WHERE NOT p` over the same table split it: their row
      counts add up to the table's. */
  lemma {:induction false} FilterSplits<T>(s: seq<T>, p: T -> bool, q: T -> bool)
    requires forall x :: q(x) == !p(x)
    ensures |Filter(s, p)| + |Filter(s, q)| == |s|
  {
    if |s| > 0 {
      FilterSplits(s[1..], p, q);
    }
  }

  /** Number of elements satisfying `p` (`SELECT COUNT(*) … WHERE p`). */
  function Count<T>(s: seq<T>, p: T -> bool): (n: nat)
    ensures n <= |s|
    ensures n == 0 <==> forall j :: 0 <= j < |s| ==> !p(s[j])
  {
    if |s| == 0 then 0
    else (if p(s[|s| - 1]) then 1 else 0) + Count(s[..|s| - 1], p)
  }

  lemma {:induction false} CountAppend<T>(s: seq<T>, x: T, p: T -> bool)
    ensures Count(s + [x], p) == Count(s, p) + (if p(x) then 1 else 0)
  {
    assert (s + [x])[..|s + [x]| - 1] == s;
  }

  /** Counting from the front: the first row's share plus the rest's. */
  lemma {:induction false} CountFront<T>(s: seq<T>, p: T -> bool)
    requires |s| > 0
    ensures Count(s, p) == (if p(s[0]) then 1 else 0) + Count(s[1..], p)
  {
    if |s| == 1 {
      assert s[..0] == [] && s[1..] == [];
    } else {
      CountFront(s[..|s| - 1], p);
      assert s[..|s| - 1][1..] == s[1..][..|s[1..]| - 1];
      assert s[..|s| - 1][0] == s[0];
      assert s[1..][|s[1..]| - 1] == s[|s| - 1];
    }
  }

  /** The rows a `WHERE p` returns are as many as `COUNT(*) … WHERE p`
      counts. */
  lemma {:induction false} FilterCount<T>(s: seq<T>, p: T -> bool)
    ensures |Filter(s, p)| == Count(s, p)
  {
    if |s| > 0 {
      FilterCount(s[1..], p);
      CountFront(s, p);
    }
  }

  /** A row appended to a table is selected after the rows already there,
      exactly when it satisfies the clause. */
  lemma {:induction false} FilterAppend<T>(s: seq<T>, x: T, p: T -> bool)
    ensures Filter(s + [x], p) == Filter(s, p) + (if p(x) then [x] else [])
  {
    if |s| == 0 {
      assert s + [x] == [x] && [x][1..] == [];
    } else {
      assert (s + [x])[0] == s[0] && (s + [x])[1..] == s[1..] + [x];
      FilterAppend(s[1..], x, p);
    }
  }

  /** `SELECT … WHERE id = $1 AND gimnasio_id = $2`: the member, when it
      exists and belongs to the gym. */
  function SocioInGym(db: Db, id: Id, gym: Id): (r: Option<Socio>)
    ensures r.Some? ==> r.value in db.socios && r.value.id == id && r.value.gym == gym
    ensures r.None? <==> forall j :: 0 <= j < |db.socios| ==> !(db.socios[j].id == id && db.socios[j].gym == gym)
  {
    Find(db.socios, (s: Socio) => s.id == id && s.gym == gym)
  }

  /** `SELECT … FROM socios WHERE id = $1`, in any gym. */
  function SocioById(db: Db, id: Id): (r: Option<Socio>)
    ensures r.Some? ==> r.value in db.socios && r.value.id == id
    ensures r.None? <==> forall j :: 0 <= j < |db.socios| ==> db.socios[j].id != id
  {
    Find(db.socios, (s: Socio) => s.id == id)
  }

  /** Whether a member row with this id exists in any gym: the target of the
      `socio_id` foreign keys. */
  predicate SocioExists(db: Db, id: Id) {
    exists j :: 0 <= j < |db.socios| && db.socios[j].id == id
  }

  /** `SELECT … FROM planes WHERE id = $1 AND gimnasio_id = $2`. */
  function PlanInGym(db: Db, id: Id, gym: Id): (r: Option<Plan>)
    ensures r.Some? ==> r.value in db.planes && r.value.id == id && r.value.gym == gym
    ensures r.None? <==> forall j :: 0 <= j < |db.planes| ==> !(db.planes[j].id == id && db.planes[j].gym == gym)
  {
    Find(db.planes, (p: Plan) => p.id == id && p.gym == gym)
  }

  /** `SELECT … FROM planes WHERE id = $1`, in any gym. */
  function PlanById(db: Db, id: Id): (r: Option<Plan>)
    ensures r.Some? ==> r.value in db.planes && r.value.id == id
    ensures r.None? <==> forall j :: 0 <= j < |db.planes| ==> db.planes[j].id != id
  {
    Find(db.planes, (p: Plan) => p.id == id)
  }

  /** Whether a membership row with this id exists: the target of the
      `pagos.membresia_id` foreign key. */
  predicate MembresiaExists(db: Db, id: Id) {
    exists j :: 0 <= j < |db.membresias| && db.membresias[j].id == id
  }
}

=== FILE: payments.dfy ===
/** Payment routes (`server/src/routes/pagos.routes.js`): registering a
    manual payment (optionally opening the membership it pays for),
    cancelling a payment, the income summary, the payment-link route and the
    gateway webhook endpoint. */
module Payments {
  import opened Model
  import Ledger
  import Gateway

  datatype PaymentRequest = PaymentRequest(
    socio: Option<Id>, membresia: Option<Id>, monto: Option<nat>, metodo: Option<string>,
    notas: Option<string>, crearMembresia: bool, plan: Option<Id>)

  /** Whether the request asks for a membership to be opened. */
  predicate OpensMembership(req: PaymentRequest) {
    req.crearMembresia && req.plan.Some?
  }

  /** `POST /pagos`. Member and a non-zero amount are required. With
      `crearMembresia` and a plan, the plan must belong to the caller's gym
      and a membership today..today+duration is opened (it never extends the
      current one); the payment links to it, otherwise to the `membresiaId`
      of the request. The payment is always `completado`. The member's gym
      is not checked; a member or membership id with no row fails a foreign
      key before any write. */
  function Register(db: Db, gym: Id, today: Day, req: PaymentRequest): (r: Result<Applied<Pago>>)
    ensures req.socio.None? || req.monto.GetOr(0) == 0 ==> r == Err(MissingFields)
    ensures req.socio.Some? && req.monto.GetOr(0) != 0 && OpensMembership(req) && PlanInGym(db, req.plan.value, gym).None? ==>
      r == Err(NotFound)
    ensures r.Ok? <==>
      && req.socio.Some? && req.monto.GetOr(0) != 0
      && (OpensMembership(req) ==> PlanInGym(db, req.plan.value, gym).Some?)
      && SocioExists(db, req.socio.value)
      && (!OpensMembership(req) && req.membresia.Some? ==> MembresiaExists(db, req.membresia.value))
    ensures r.Err? ==> r.error in {MissingFields, NotFound, InvalidReference}
    ensures r.Ok? ==>
      var pago := r.value.value;
      var db' := r.value.db;
      && req.socio.Some? && req.monto.Some?
      && pago.socio == req.socio.value && pago.monto == req.monto.value
      && pago.estado == Completado && pago.metodo == OrElse(req.metodo, "efectivo")
      && pago.mpPaymentId.None? && pago.fecha == today
      && |db'.pagos| == |db.pagos| + 1
      && db'.pagos[..|db.pagos|] == db.pagos && db'.pagos[|db'.pagos| - 1] == pago
      && db'.socios == db.socios && db'.planes == db.planes && db'.accesos == db.accesos
    ensures r.Ok? && !OpensMembership(req) ==>
      && r.value.db.membresias == db.membresias
      && r.value.value.membresia == req.membresia
    ensures r.Ok? && OpensMembership(req) ==>
      && PlanInGym(db, req.plan.value, gym).Some? && |r.value.db.membresias| == |db.membresias| + 1
      && var p := PlanInGym(db, req.plan.value, gym).value;
      && var m := r.value.db.membresias[|db.membresias|];
      && m.socio == req.socio.value && m.plan == Some(p.id)
      && m.inicio == today && m.fin == today + p.duracion
      && Ledger.OpenedFrom(db, r.value.db.(pagos := db.pagos), m)
      && Ledger.SoleActive(r.value.db, m, |db.membresias|)
      && r.value.value.membresia == Some(m.id)
  {
    if req.socio.None? || req.monto.GetOr(0) == 0 then Err(MissingFields)
    else
      var socio := req.socio.value;
      var linked: Result<Applied<Option<Id>>> :=
        if OpensMembership(req) then
          match PlanInGym(db, req.plan.value, gym)
          case None => Err(NotFound)
          case Some(p) =>
            if !SocioExists(db, socio) then Err(InvalidReference)
            else
              var a := Ledger.Open(db, socio, p.id, today, today + p.duracion);
              assert a.db.membresias[|db.membresias|].id == a.value.id;
              Ok(Applied(a.db, Some(a.value.id)))
        else Ok(Applied(db, req.membresia));
      match linked
      case Err(e) => Err(e)
      case Ok(Applied(db1, link)) =>
        if !SocioExists(db1, socio) || (link.Some? && !MembresiaExists(db1, link.value)) then Err(InvalidReference)
        else
          var pago := Pago(db1.nextId, socio, link, req.monto.value, OrElse(req.metodo, "efectivo"),
                           None, None, Completado, req.notas, today);
          var ps' := db1.pagos + [pago];
          assert ps'[..|ps'| - 1] == db1.pagos;
          Ok(Applied(db1.(pagos := ps', nextId := db1.nextId + 1), pago))
  }

  /** Registering a payment keeps every member at no more than one `activa`
      row: a membership it opens is opened like any other. */
  lemma RegisterPreservesSingleActive(db: Db, gym: Id, today: Day, req: PaymentRequest)
    requires Ledger.SingleActive(db.membresias)
    requires Register(db, gym, today, req).Ok?
    ensures Ledger.SingleActive(Register(db, gym, today, req).value.db.membresias)
  {
  }

  /** Whether payment `p` belongs to a member of the gym (the
      `JOIN socios … WHERE s.gimnasio_id = $1` of every payment query). */
  predicate OfGym(socios: seq<Socio>, gym: Id, p: Pago) {
    exists j :: 0 <= j < |socios| && socios[j].id == p.socio && socios[j].gym == gym
  }

  /** The rows a cancel statement selects. */
  predicate Selected(socios: seq<Socio>, gym: Id, id: Id, p: Pago) {
    p.id == id && OfGym(socios, gym, p)
  }

  /** `SET estado = 'cancelado'` on the selected rows, row by row. */
  function MarkCancelled(ps: seq<Pago>, socios: seq<Socio>, gym: Id, id: Id): (r: seq<Pago>)
    ensures |r| == |ps|
    ensures forall i :: 0 <= i < |ps| && Selected(socios, gym, id, ps[i]) ==> r[i] == ps[i].(estado := Cancelado)
    ensures forall i :: 0 <= i < |ps| && !Selected(socios, gym, id, ps[i]) ==> r[i] == ps[i]
  {
    if |ps| == 0 then []
    else
      var last := ps[|ps| - 1];
      var rest := MarkCancelled(ps[..|ps| - 1], socios, gym, id);
      rest + [if Selected(socios, gym, id, last) then last.(estado := Cancelado) else last]
  }

  /** `DELETE /pagos/:id`: marks a payment of the caller's gym `cancelado`
      (whatever its status); a payment of another gym, or none, is
      NotFound. Rows are never removed. */
  function Cancel(db: Db, gym: Id, id: Id): (r: Result<Db>)
    ensures r.Err? <==> forall i :: 0 <= i < |db.pagos| ==> !Selected(db.socios, gym, id, db.pagos[i])
    ensures r.Err? ==> r.error == NotFound
    ensures r.Ok? ==> r.value == db.(pagos := r.value.pagos) && |r.value.pagos| == |db.pagos|
    ensures r.Ok? ==> forall i :: 0 <= i < |db.pagos| ==>
      if Selected(db.socios, gym, id, db.pagos[i]) then r.value.pagos[i] == db.pagos[i].(estado := Cancelado)
      else r.value.pagos[i] == db.pagos[i]
  {
    if forall i :: 0 <= i < |db.pagos| ==> !Selected(db.socios, gym, id, db.pagos[i]) then Err(NotFound)
    else Ok(db.(pagos := MarkCancelled(db.pagos, db.socios, gym, id)))
  }

  /** Cancelling is idempotent: a second cancel of the same payment
      succeeds and changes nothing. */
  lemma CancelTwiceIsCancelOnce(db: Db, gym: Id, id: Id)
    requires Cancel(db, gym, id).Ok?
    ensures Cancel(Cancel(db, gym, id).value, gym, id) == Cancel(db, gym, id)
  {
    var db1 := Cancel(db, gym, id).value;
    var k :| 0 <= k < |db.pagos| && Selected(db.socios, gym, id, db.pagos[k]);
    assert Selected(db1.socios, gym, id, db1.pagos[k]);
    var db2 := Cancel(db1, gym, id).value;
    assert db2.pagos == db1.pagos;
  }

  /** The `periodo` of the summary. Month and year start days are given by
      the caller (calendar truncation is not modelled); any other value of
      `periodo` applies no date filter. */
  datatype Period = Hoy | Semana | Mes(monthStart: Day) | Anio(yearStart: Day) | SinFiltro

  predicate InPeriod(fecha: Day, today: Day, period: Period) {
    match period
    case Hoy => fecha == today
    case Semana => fecha >= today - 7
    case Mes(s) => fecha >= s
    case Anio(s) => fecha >= s
    case SinFiltro => true
  }

  /** Whether a payment enters the summary: `completado`, of the gym, in
      the period. */
  predicate Counted(socios: seq<Socio>, gym: Id, today: Day, period: Period, p: Pago) {
    p.estado == Completado && OfGym(socios, gym, p) && InPeriod(p.fecha, today, period)
  }

  function CountedFn(socios: seq<Socio>, gym: Id, today: Day, period: Period): Pago -> bool {
    (p: Pago) => Counted(socios, gym, today, period, p)
  }

  /** Sum of the amounts of the counted payments paid with `metodo` (all
      methods when `metodo` is absent). */
  function Income(ps: seq<Pago>, socios: seq<Socio>, gym: Id, today: Day, period: Period, metodo: Option<string>): nat {
    if |ps| == 0 then 0
    else
      var p := ps[|ps| - 1];
      Income(ps[..|ps| - 1], socios, gym, today, period, metodo)
      + (if Counted(socios, gym, today, period, p) && (metodo.Some? ==> p.metodo == metodo.value) then p.monto else 0)
  }

  datatype Totals = Totals(ingresos: nat, pagos: nat, efectivo: nat, mercadopago: nat, transferencia: nat)

  /** `GET /pagos/resumen`. */
  function Summary(db: Db, gym: Id, today: Day, period: Period): (t: Totals)
    ensures t.efectivo + t.mercadopago + t.transferencia <= t.ingresos
    ensures t.pagos == Count(db.pagos, CountedFn(db.socios, gym, today, period))
  {
    ByMethodWithinTotal(db.pagos, db.socios, gym, today, period);
    Totals(
      Income(db.pagos, db.socios, gym, today, period, None),
      Count(db.pagos, CountedFn(db.socios, gym, today, period)),
      Income(db.pagos, db.socios, gym, today, period, Some("efectivo")),
      Income(db.pagos, db.socios, gym, today, period, Some("mercadopago")),
      Income(db.pagos, db.socios, gym, today, period, Some("transferencia")))
  }

  /** The three per-method columns never exceed the total: each counted
      payment has one method. */
  lemma {:induction false} ByMethodWithinTotal(ps: seq<Pago>, socios: seq<Socio>, gym: Id, today: Day, period: Period)
    ensures Income(ps, socios, gym, today, period, Some("efectivo"))
          + Income(ps, socios, gym, today, period, Some("mercadopago"))
          + Income(ps, socios, gym, today, period, Some("transferencia"))
         <= Income(ps, socios, gym, today, period, None)
  {
    if |ps| > 0 {
      ByMethodWithinTotal(ps[..|ps| - 1], socios, gym, today, period);
    }
  }

  /** Income of the rows a cancel selects, as counted before it. */
  function SelectedIncome(ps: seq<Pago>, socios: seq<Socio>, gym: Id, id: Id, today: Day, period: Period): nat {
    if |ps| == 0 then 0
    else
      var p := ps[|ps| - 1];
      SelectedIncome(ps[..|ps| - 1], socios, gym, id, today, period)
      + (if Selected(socios, gym, id, p) && Counted(socios, gym, today, period, p) then p.monto else 0)
  }

  /** A cancelled payment stops counting: the summary's income drops by
      exactly the amount it contributed. */
  lemma {:induction false} CancelStopsCounting(ps: seq<Pago>, socios: seq<Socio>, gym: Id, id: Id, today: Day, period: Period)
    ensures Income(MarkCancelled(ps, socios, gym, id), socios, gym, today, period, None)
          + SelectedIncome(ps, socios, gym, id, today, period)
         == Income(ps, socios, gym, today, period, None)
  {
    if |ps| > 0 {
      var ps' := MarkCancelled(ps, socios, gym, id);
      CancelStopsCounting(ps[..|ps| - 1], socios, gym, id, today, period);
      assert ps'[..|ps'| - 1] == MarkCancelled(ps[..|ps| - 1], socios, gym, id);
    }
  }

  /** The summary after a cancel: income falls by the cancelled payment's
      counted amount and never rises. */
  lemma CancelLowersSummary(db: Db, gym: Id, id: Id, today: Day, period: Period)
    requires Cancel(db, gym, id).Ok?
    ensures Summary(Cancel(db, gym, id).value, gym, today, period).ingresos
          == Summary(db, gym, today, period).ingresos - SelectedIncome(db.pagos, db.socios, gym, id, today, period)
  {
    CancelStopsCounting(db.pagos, db.socios, gym, id, today, period);
  }

  /** A payment appended to the table adds its amount to an income exactly
      when it is counted with that method. */
  lemma IncomeAppend(ps: seq<Pago>, x: Pago, socios: seq<Socio>, gym: Id, today: Day, period: Period, metodo: Option<string>)
    ensures Income(ps + [x], socios, gym, today, period, metodo)
         == Income(ps, socios, gym, today, period, metodo)
          + (if Counted(socios, gym, today, period, x) && (metodo.Some? ==> x.metodo == metodo.value) then x.monto else 0)
  {
    assert (ps + [x])[..|ps|] == ps;
  }

  /** One appended payment moves the summary by its own contribution:
      its amount to the income and to its method's column, one to the
      count, when it is counted; nothing otherwise. */
  lemma SummaryAppend(db: Db, db': Db, x: Pago, gym: Id, today: Day, period: Period)
    requires db'.pagos == db.pagos + [x] && db'.socios == db.socios
    ensures var before := Summary(db, gym, today, period);
            var after := Summary(db', gym, today, period);
            var a := if Counted(db.socios, gym, today, period, x) then x.monto else 0;
            && after.ingresos == before.ingresos + a
            && after.pagos == before.pagos + (if Counted(db.socios, gym, today, period, x) then 1 else 0)
            && after.efectivo == before.efectivo + (if x.metodo == "efectivo" then a else 0)
            && after.mercadopago == before.mercadopago + (if x.metodo == "mercadopago" then a else 0)
            && after.transferencia == before.transferencia + (if x.metodo == "transferencia" then a else 0)
  {
    IncomeAppend(db.pagos, x, db.socios, gym, today, period, None);
    IncomeAppend(db.pagos, x, db.socios, gym, today, period, Some("efectivo"));
    IncomeAppend(db.pagos, x, db.socios, gym, today, period, Some("mercadopago"));
    IncomeAppend(db.pagos, x, db.socios, gym, today, period, Some("transferencia"));
    CountAppend(db.pagos, x, CountedFn(db.socios, gym, today, period));
  }

  /** The write path feeds the summary: a registered payment adds its
      amount to the income and to its method's column, and one to the count,
      when its member belongs to the gym and today is in the period;
      otherwise the summary does not move. */
  lemma RegisterRaisesSummary(db: Db, gym: Id, today: Day, req: PaymentRequest, period: Period)
    requires Register(db, gym, today, req).Ok?
    ensures var before := Summary(db, gym, today, period);
            var after := Summary(Register(db, gym, today, req).value.db, gym, today, period);
            var counted := SocioInGym(db, req.socio.value, gym).Some? && InPeriod(today, today, period);
            var a := if counted then req.monto.value else 0;
            var m := OrElse(req.metodo, "efectivo");
            && after.ingresos == before.ingresos + a
            && after.pagos == before.pagos + (if counted then 1 else 0)
            && after.efectivo == before.efectivo + (if m == "efectivo" then a else 0)
            && after.mercadopago == before.mercadopago + (if m == "mercadopago" then a else 0)
            && after.transferencia == before.transferencia + (if m == "transferencia" then a else 0)
  {
    var db' := Register(db, gym, today, req).value.db;
    var pago := Register(db, gym, today, req).value.value;
    assert db'.pagos == db.pagos + [pago];
    assert Counted(db.socios, gym, today, period, pago) <==>
           SocioInGym(db, req.socio.value, gym).Some? && InPeriod(today, today, period) by {
      if SocioInGym(db, pago.socio, gym).Some? {
        var j :| 0 <= j < |db.socios| && db.socios[j] == SocioInGym(db, pago.socio, gym).value;
      }
    }
    SummaryAppend(db, db', pago, gym, today, period);
  }

  /** `POST /pagos/mercadopago/crear-link`: member and plan are required
      and the gateway must be configured before the link is generated. */
  function CreateLink(db: Db, env: Gateway.Env, gym: Id, socio: Option<Id>, plan: Option<Id>): (r: Result<Gateway.Preference>)
    ensures socio.None? || plan.None? ==> r == Err(MissingFields)
    ensures socio.Some? && plan.Some? && !Gateway.IsConfigured(env.token) ==> r == Err(GatewayNotConfigured)
    ensures socio.Some? && plan.Some? && Gateway.IsConfigured(env.token) && SocioById(db, socio.value).None? ==> r == Err(SocioMissing)
    ensures r.Ok? <==> && socio.Some? && plan.Some? && Gateway.IsConfigured(env.token)
                       && SocioById(db, socio.value).Some? && PlanById(db, plan.value).Some?
    ensures r.Ok? ==> r.value.reference == Gateway.ExternalRef(socio, plan, Some(gym), "membresia")
  {
    if socio.None? || plan.None? then Err(MissingFields)
    else if !Gateway.IsConfigured(env.token) then Err(GatewayNotConfigured)
    else Gateway.GeneratePaymentLink(db, env, socio.value, plan.value, gym)
  }

  /** The link a gym hands out reaches the reconciler intact: the first
      approved payment made through it is recorded for that member. */
  lemma CreateLinkReachesReconciler(
    db: Db, env: Gateway.Env, gym: Id, socio: Id, plan: Id, today: Day, dataId: string, mpId: nat, amount: nat)
    requires CreateLink(db, env, gym, Some(socio), Some(plan)).Ok?
    requires dataId != "" && !Gateway.Recorded(db.pagos, mpId)
    ensures var pref := CreateLink(db, env, gym, Some(socio), Some(plan)).value;
            var r := Gateway.ProcessWebhook(db, today, Gateway.Notification(Some("payment"), Some(dataId)),
                                            Some(Gateway.GatewayPayment(mpId, "approved", amount, Gateway.Encoded(pref.reference))));
            && r.Ok? && r.value.value == Gateway.Processed(mpId)
            && r.value.db.pagos[|db.pagos|].socio == socio
  {
    Gateway.PreferenceReferenceReachesReconciler(db, env, socio, plan, gym, today, dataId, mpId, amount);
  }

  /** The webhook answer: always HTTP 200 with `received: true`, plus the
      reconciler's outcome or the error it threw. */
  datatype Ack = Ack(status: nat, received: bool, outcome: Option<Gateway.WebhookOutcome>, error: Option<Error>)

  /** `POST /pagos/webhook`: the gateway is acknowledged with 200 even when
      processing fails, so it does not redeliver; a failure writes nothing. */
  function Webhook(db: Db, today: Day, n: Gateway.Notification, fetched: Option<Gateway.GatewayPayment>): (r: Applied<Ack>)
    ensures r.value.status == 200 && r.value.received
    ensures r.value.error.Some? <==> r.value.outcome.None?
    ensures r.value.error.Some? ==> r.db == db
    ensures r.value.outcome == Some(Gateway.Duplicate) ==> r.db == db
    ensures r.value.outcome.Some? && r.value.outcome.value.NotProcessed? ==> r.db == db
  {
    match Gateway.ProcessWebhook(db, today, n, fetched)
    case Err(e) => Applied(db, Ack(200, true, None, Some(e)))
    case Ok(a) => Applied(a.db, Ack(200, true, Some(a.value), None))
  }

  /** The handler records an approved gateway payment for an existing
      member the first time it is notified, and acknowledges it with 200. */
  lemma WebhookRecordsApprovedPayment(db: Db, today: Day, dataId: string, p: Gateway.GatewayPayment)
    requires dataId != "" && p.status == "approved"
    requires p.reference.Encoded? && p.reference.ref.socio.Some?
    requires SocioExists(db, p.reference.ref.socio.value) && !Gateway.Recorded(db.pagos, p.id)
    ensures var r := Webhook(db, today, Gateway.Notification(Some("payment"), Some(dataId)), Some(p));
            && r.value.status == 200 && r.value.outcome == Some(Gateway.Processed(p.id))
            && Gateway.RecordedCount(r.db.pagos, p.id) == 1
  {
  }

  /** The first test of the authentication middleware
      (`server/src/middleware/auth.js`): an `Authorization` header of the
      form `Bearer <token>`. */
  predicate BearerHeader(h: Option<string>) {
    h.Some? && |h.value| >= 7 && h.value[..7] == "Bearer "
  }

  /** `POST /pagos/webhook` as the router mounts it: the authentication
      middleware is installed before every route of the router, the webhook
      included, so a request without a `Bearer` header, or whose token does
      not verify to an active user (`authorized`), is answered 401 and the
      handler never runs. */
  function MountedWebhook(db: Db, today: Day, n: Gateway.Notification, fetched: Option<Gateway.GatewayPayment>,
                          authorization: Option<string>, authorized: bool): (r: Applied<Ack>)
    ensures !BearerHeader(authorization) || !authorized ==>
      r.db == db && r.value.status == 401 && !r.value.received && r.value.outcome.None?
    ensures BearerHeader(authorization) && authorized ==> r.value.status == 200 && r.value.received
  {
    if !BearerHeader(authorization) || !authorized then Applied(db, Ack(401, false, None, Some(Unauthorized)))
    else Webhook(db, today, n, fetched)
  }

  /** The gateway's notifications carry no `Authorization` header: as
      mounted, an approved payment for an existing member is refused with
      401 and never recorded, where the handler itself records it. */
  lemma GatewayNotificationRefused(db: Db, today: Day, dataId: string, p: Gateway.GatewayPayment, authorized: bool)
    requires dataId != "" && p.status == "approved"
    requires p.reference.Encoded? && p.reference.ref.socio.Some?
    requires SocioExists(db, p.reference.ref.socio.value) && !Gateway.Recorded(db.pagos, p.id)
    ensures var n := Gateway.Notification(Some("payment"), Some(dataId));
            var mounted := MountedWebhook(db, today, n, Some(p), None, authorized);
            var handler := Webhook(db, today, n, Some(p));
            && mounted.value.status == 401 && !Gateway.Recorded(mounted.db.pagos, p.id)
            && handler.value.status == 200 && Gateway.Recorded(handler.db.pagos, p.id)
  {
    var n := Gateway.Notification(Some("payment"), Some(dataId));
    WebhookRecordsApprovedPayment(db, today, dataId, p);
    assert Gateway.RecordedCount(Webhook(db, today, n, Some(p)).db.pagos, p.id) != 0;
  }
}

=== FILE: plans.dfy ===
/** Subscription plans (`server/src/routes/planes.routes.js`): listing,
    creation, partial update and the guarded delete. Every statement but the
    delete guard is scoped to the caller's gym. */
module Plans {
  import opened Model

  /** Number of `activa` memberships that reference the plan (the delete
      guard's `COUNT(*)` and the listing's `socios_activos`). */
  function ActiveCount(ms: seq<Membresia>, plan: Id): (n: nat)
    ensures n == 0 <==> forall i :: 0 <= i < |ms| ==> !(ms[i].plan == Some(plan) && ms[i].estado == Activa)
  {
    Count(ms, (m: Membresia) => m.plan == Some(plan) && m.estado == Activa)
  }

  predicate SortedByPrice(s: seq<Plan>) {
    forall i, j :: 0 <= i < j < |s| ==> s[i].precio <= s[j].precio
  }

  /** Insert `p` before the first plan dearer than it. */
  function InsertByPrice(p: Plan, s: seq<Plan>): seq<Plan> {
    if |s| == 0 then [p]
    else if p.precio <= s[0].precio then [p] + s
    else [s[0]] + InsertByPrice(p, s[1..])
  }

  lemma {:induction false} InsertByPriceKeepsElements(p: Plan, s: seq<Plan>)
    ensures multiset(InsertByPrice(p, s)) == multiset(s) + multiset{p}
  {
    if |s| > 0 && p.precio > s[0].precio {
      InsertByPriceKeepsElements(p, s[1..]);
      assert s == [s[0]] + s[1..];
    }
  }

  lemma {:induction false} InsertByPriceSorted(p: Plan, s: seq<Plan>)
    requires SortedByPrice(s)
    ensures SortedByPrice(InsertByPrice(p, s))
  {
    if |s| == 0 {
    } else if p.precio <= s[0].precio {
      PrependSorted(p, s);
    } else {
      var rest := InsertByPrice(p, s[1..]);
      InsertByPriceSorted(p, s[1..]);
      InsertByPriceKeepsElements(p, s[1..]);
      forall i | 0 <= i < |rest| ensures s[0].precio <= rest[i].precio {
        assert rest[i] in multiset(rest);
        assert rest[i] == p || rest[i] in multiset(s[1..]);
      }
      PrependSorted(s[0], rest);
    }
  }

  lemma PrependSorted(x: Plan, t: seq<Plan>)
    requires SortedByPrice(t)
    requires forall i :: 0 <= i < |t| ==> x.precio <= t[i].precio
    ensures SortedByPrice([x] + t)
  {
    var r := [x] + t;
    forall i, j | 0 <= i < j < |r| ensures r[i].precio <= r[j].precio {
      if i > 0 {
        assert r[i] == t[i - 1] && r[j] == t[j - 1];
      } else {
        assert r[j] == t[j - 1];
      }
    }
  }

  /** `ORDER BY precio ASC`: a cheapest-first permutation of `s`. */
  function SortByPrice(s: seq<Plan>): (r: seq<Plan>)
    ensures SortedByPrice(r)
    ensures multiset(r) == multiset(s)
  {
    if |s| == 0 then []
    else
      var rest := SortByPrice(s[1..]);
      SortStep(s, rest);
      InsertByPrice(s[0], rest)
  }

  /** Inserting the head into the sorted tail sorts the whole sequence. */
  lemma SortStep(s: seq<Plan>, rest: seq<Plan>)
    requires |s| > 0 && SortedByPrice(rest) && multiset(rest) == multiset(s[1..])
    ensures SortedByPrice(InsertByPrice(s[0], rest))
    ensures multiset(InsertByPrice(s[0], rest)) == multiset(s)
  {
    InsertByPriceSorted(s[0], rest);
    InsertByPriceKeepsElements(s[0], rest);
    assert s == [s[0]] + s[1..];
  }

  /** Whether a plan passes the listing's `WHERE` clause. */
  predicate Listed(p: Plan, gym: Id, activo: Option<bool>) {
    p.gym == gym && (activo.Some? ==> p.activo == activo.value)
  }

  function ListedFn(gym: Id, activo: Option<bool>): Plan -> bool {
    (p: Plan) => Listed(p, gym, activo)
  }

  /** `GET /planes[?activo=…]`: the caller's plans, those with the given
      flag when one is given, cheapest first. */
  function ListPlans(db: Db, gym: Id, activo: Option<bool>): (r: seq<Plan>)
    ensures SortedByPrice(r)
    ensures forall i :: 0 <= i < |r| ==> r[i] in db.planes && r[i].gym == gym
    ensures activo.Some? ==> forall i :: 0 <= i < |r| ==> r[i].activo == activo.value
    ensures forall i :: 0 <= i < |db.planes| && Listed(db.planes[i], gym, activo) ==> db.planes[i] in r
    ensures multiset(r) == multiset(Filter(db.planes, ListedFn(gym, activo)))
  {
    var kept := Filter(db.planes, ListedFn(gym, activo));
    var r := SortByPrice(kept);
    SameRowsAsListing(db.planes, gym, activo, r);
    r
  }

  /** Any reordering of the listed rows holds exactly the listed plans. */
  lemma SameRowsAsListing(planes: seq<Plan>, gym: Id, activo: Option<bool>, r: seq<Plan>)
    requires multiset(r) == multiset(Filter(planes, ListedFn(gym, activo)))
    ensures forall i :: 0 <= i < |r| ==> r[i] in planes && Listed(r[i], gym, activo)
    ensures forall i :: 0 <= i < |planes| && Listed(planes[i], gym, activo) ==> planes[i] in r
  {
    forall i | 0 <= i < |r| ensures r[i] in planes && Listed(r[i], gym, activo) {
      InMultiset(r, Filter(planes, ListedFn(gym, activo)), r[i]);
      ListedRow(planes, gym, activo, r[i]);
    }
    forall i | 0 <= i < |planes| && Listed(planes[i], gym, activo) ensures planes[i] in r {
      assert ListedFn(gym, activo)(planes[i]);
      InMultiset(Filter(planes, ListedFn(gym, activo)), r, planes[i]);
    }
  }

  /** Two sequences with the same multiset hold the same elements. */
  lemma InMultiset<T>(a: seq<T>, b: seq<T>, x: T)
    requires multiset(a) == multiset(b) && x in a
    ensures x in b
  {
    assert x in multiset(a);
  }

  /** A row the listing selects is a plan of the table that passes its
      clause. */
  lemma ListedRow(planes: seq<Plan>, gym: Id, activo: Option<bool>, x: Plan)
    requires x in Filter(planes, ListedFn(gym, activo))
    ensures x in planes && Listed(x, gym, activo)
  {
    var kept := Filter(planes, ListedFn(gym, activo));
    var k :| 0 <= k < |kept| && kept[k] == x;
    assert ListedFn(gym, activo)(kept[k]);
  }

  datatype PlanRequest = PlanRequest(
    nombre: Option<string>, descripcion: Option<string>, precio: Option<nat>, duracion: Option<int>)

  /** A row of the plan listing: the plan and its `socios_activos`, the
      number of `activa` memberships that reference it. The subquery has no
      gym filter, so memberships of every gym are counted. */
  datatype PlanRow = PlanRow(plan: Plan, sociosActivos: nat)

  /** `GET /planes` with its `socios_activos` column. */
  function ListPlanRows(db: Db, gym: Id, activo: Option<bool>): (r: seq<PlanRow>)
    ensures |r| == |ListPlans(db, gym, activo)|
    ensures forall i :: 0 <= i < |r| ==> r[i].plan == ListPlans(db, gym, activo)[i]
    ensures forall i :: 0 <= i < |r| ==>
      (r[i].sociosActivos == 0 <==>
         forall k :: 0 <= k < |db.membresias| ==> !(db.membresias[k].plan == Some(r[i].plan.id) && db.membresias[k].estado == Activa))
  {
    var ps := ListPlans(db, gym, activo);
    seq(|ps|, i requires 0 <= i < |ps| => PlanRow(ps[i], ActiveCount(db.membresias, ps[i].id)))
  }

  /** `POST /planes`: name, price and duration are required and must be
      truthy, so a price or a duration of 0 is refused as missing. */
  function CreatePlan(db: Db, gym: Id, req: PlanRequest): (r: Result<Applied<Plan>>)
    ensures r.Err? <==> !Given(req.nombre) || req.precio.GetOr(0) == 0 || req.duracion.GetOr(0) == 0
    ensures r.Err? ==> r.error == MissingFields
    ensures r.Ok? ==>
      var p := r.value.value;
      && p == Plan(db.nextId, gym, req.nombre.value, req.descripcion, req.precio.value, req.duracion.value, true)
      && r.value.db == db.(planes := db.planes + [p], nextId := db.nextId + 1)
  {
    if !Given(req.nombre) || req.precio.GetOr(0) == 0 || req.duracion.GetOr(0) == 0 then Err(MissingFields)
    else
      var p := Plan(db.nextId, gym, req.nombre.value, req.descripcion, req.precio.value, req.duracion.value, true);
      Ok(Applied(db.(planes := db.planes + [p], nextId := db.nextId + 1), p))
  }

  /** A created plan is listed: it joins the gym's listing (and the listing
      of active plans) as exactly one more row. */
  lemma CreatedPlanIsListed(db: Db, gym: Id, req: PlanRequest, activo: Option<bool>)
    requires CreatePlan(db, gym, req).Ok?
    requires activo != Some(false)
    ensures var a := CreatePlan(db, gym, req).value;
            && a.value in ListPlans(a.db, gym, activo)
            && |ListPlans(a.db, gym, activo)| == |ListPlans(db, gym, activo)| + 1
  {
    var a := CreatePlan(db, gym, req).value;
    FilterAppend(db.planes, a.value, ListedFn(gym, activo));
    assert ListedFn(gym, activo)(a.value);
    assert a.db.planes[|db.planes|] == a.value;
    var before := ListPlans(db, gym, activo);
    var after := ListPlans(a.db, gym, activo);
    assert |after| == |multiset(after)| == |Filter(a.db.planes, ListedFn(gym, activo))|;
    assert |before| == |multiset(before)| == |Filter(db.planes, ListedFn(gym, activo))|;
  }

  datatype PlanPatch = PlanPatch(
    nombre: Option<string>, descripcion: Option<string>, precio: Option<nat>,
    duracion: Option<int>, activo: Option<bool>)

  function ApplyPlanPatch(p: Plan, patch: PlanPatch): Plan {
    p.(nombre := patch.nombre.GetOr(p.nombre),
       descripcion := if patch.descripcion.Some? then patch.descripcion else p.descripcion,
       precio := patch.precio.GetOr(p.precio),
       duracion := patch.duracion.GetOr(p.duracion),
       activo := patch.activo.GetOr(p.activo))
  }

  /** `PUT /planes/:id`: a plan of the caller's gym takes each field the
      request carries and keeps every other; a plan of another gym is
      NotFound. Nothing is validated. */
  function UpdatePlan(db: Db, gym: Id, id: Id, patch: PlanPatch): (r: Result<Applied<Plan>>)
    ensures r.Err? <==> PlanInGym(db, id, gym).None?
    ensures r.Err? ==> r.error == NotFound
    ensures r.Ok? ==> |r.value.db.planes| == |db.planes| && r.value.db == db.(planes := r.value.db.planes)
    ensures r.Ok? ==> forall i :: 0 <= i < |db.planes| && !(db.planes[i].id == id && db.planes[i].gym == gym) ==>
      r.value.db.planes[i] == db.planes[i]
    ensures r.Ok? ==> forall i :: 0 <= i < |db.planes| && db.planes[i].id == id && db.planes[i].gym == gym ==>
      var o := db.planes[i];
      var n := r.value.db.planes[i];
      && (patch.nombre.None? ==> n.nombre == o.nombre) && (patch.nombre.Some? ==> n.nombre == patch.nombre.value)
      && (patch.descripcion.None? ==> n.descripcion == o.descripcion) && (patch.descripcion.Some? ==> n.descripcion == patch.descripcion)
      && (patch.precio.None? ==> n.precio == o.precio) && (patch.precio.Some? ==> n.precio == patch.precio.value)
      && (patch.duracion.None? ==> n.duracion == o.duracion) && (patch.duracion.Some? ==> n.duracion == patch.duracion.value)
      && (patch.activo.None? ==> n.activo == o.activo) && (patch.activo.Some? ==> n.activo == patch.activo.value)
      && n.id == o.id && n.gym == o.gym
    ensures r.Ok? ==> r.value.value.id == id && r.value.value.gym == gym
  {
    var ps' := seq(|db.planes|, i requires 0 <= i < |db.planes| =>
      if db.planes[i].id == id && db.planes[i].gym == gym then ApplyPlanPatch(db.planes[i], patch) else db.planes[i]);
    match FirstIndex(db.planes, (p: Plan) => p.id == id && p.gym == gym)
    case None => Err(NotFound)
    case Some(k) => Ok(Applied(db.(planes := ps'), ps'[k]))
  }

  /** An update that carries no field changes nothing and answers the plan
      as it is. */
  lemma EmptyPlanPatchIsIdentity(db: Db, gym: Id, id: Id)
    requires PlanInGym(db, id, gym).Some?
    ensures var r := UpdatePlan(db, gym, id, PlanPatch(None, None, None, None, None));
            r.Ok? && r.value.db == db && r.value.value == PlanInGym(db, id, gym).value
  {
    var r := UpdatePlan(db, gym, id, PlanPatch(None, None, None, None, None));
    assert r.value.db.planes == db.planes;
    var k := FirstIndex(db.planes, (p: Plan) => p.id == id && p.gym == gym).value;
    assert forall j :: 0 <= j < k ==> !(db.planes[j].id == id && db.planes[j].gym == gym);
  }

  /** `DELETE /planes/:id`. The guard counts `activa` memberships on the
      plan in every gym and runs before the gym check; the delete itself is
      scoped to the caller's gym. Memberships that referenced the deleted
      plan keep their rows with a null plan (`ON DELETE SET NULL`). */
  function DeletePlan(db: Db, gym: Id, id: Id): (r: Result<Applied<Id>>)
    ensures ActiveCount(db.membresias, id) > 0 ==> r == Err(PlanInUse)
    ensures ActiveCount(db.membresias, id) == 0 && PlanInGym(db, id, gym).None? ==> r == Err(NotFound)
    ensures r.Ok? <==> ActiveCount(db.membresias, id) == 0 && PlanInGym(db, id, gym).Some?
    ensures r.Ok? ==>
      var db' := r.value.db;
      && (forall i :: 0 <= i < |db'.planes| ==> db'.planes[i] in db.planes && !(db'.planes[i].id == id && db'.planes[i].gym == gym))
      && (forall i :: 0 <= i < |db.planes| && !(db.planes[i].id == id && db.planes[i].gym == gym) ==> db.planes[i] in db'.planes)
      && |db'.membresias| == |db.membresias|
      && (forall i :: 0 <= i < |db.membresias| ==> db'.membresias[i].estado == db.membresias[i].estado)
      && (forall i :: 0 <= i < |db.membresias| && db.membresias[i].plan == Some(id) ==>
            db.membresias[i].estado != Activa && db'.membresias[i] == db.membresias[i].(plan := None))
      && (forall i :: 0 <= i < |db.membresias| && db.membresias[i].plan != Some(id) ==> db'.membresias[i] == db.membresias[i])
      && db'.socios == db.socios && db'.pagos == db.pagos && db'.accesos == db.accesos
  {
    if ActiveCount(db.membresias, id) > 0 then Err(PlanInUse)
    else if PlanInGym(db, id, gym).None? then Err(NotFound)
    else
      var ps' := Filter(db.planes, (p: Plan) => !(p.id == id && p.gym == gym));
      var ms' := seq(|db.membresias|, i requires 0 <= i < |db.membresias| =>
        if db.membresias[i].plan == Some(id) then db.membresias[i].(plan := None) else db.membresias[i]);
      Ok(Applied(db.(planes := ps', membresias := ms'), id))
  }

  /** Deleting is final: once a plan is deleted, no listing of the gym
      shows it, and deleting it again is NotFound. No membership is left
      referring to it, so the in-use guard no longer fires. */
  lemma DeletePlanTwiceNotFound(db: Db, gym: Id, id: Id, activo: Option<bool>)
    requires DeletePlan(db, gym, id).Ok?
    ensures var db' := DeletePlan(db, gym, id).value.db;
            forall i :: 0 <= i < |ListPlans(db', gym, activo)| ==> ListPlans(db', gym, activo)[i].id != id
    ensures DeletePlan(DeletePlan(db, gym, id).value.db, gym, id) == Err(NotFound)
  {
    var db' := DeletePlan(db, gym, id).value.db;
    assert ActiveCount(db'.membresias, id) == 0 by {
      forall i | 0 <= i < |db'.membresias| ensures !(db'.membresias[i].plan == Some(id) && db'.membresias[i].estado == Activa) {
        if db.membresias[i].plan != Some(id) {
          assert db'.membresias[i] == db.membresias[i];
        }
      }
    }
    assert PlanInGym(db', id, gym).None?;
    var l := ListPlans(db', gym, activo);
    forall i | 0 <= i < |l| ensures l[i].id != id {
      var k :| 0 <= k < |db'.planes| && db'.planes[k] == l[i];
    }
  }

  /** The listing's `socios_activos` and the delete guard agree: a listed
      plan with active members cannot be deleted, and a listed plan with
      none can. */
  lemma ListedCountGuardsDelete(db: Db, gym: Id, activo: Option<bool>, i: nat)
    requires i < |ListPlanRows(db, gym, activo)|
    ensures var row := ListPlanRows(db, gym, activo)[i];
            row.sociosActivos > 0 <==> DeletePlan(db, gym, row.plan.id) == Err(PlanInUse)
    ensures var row := ListPlanRows(db, gym, activo)[i];
            row.sociosActivos == 0 <==> DeletePlan(db, gym, row.plan.id).Ok?
  {
    var row := ListPlanRows(db, gym, activo)[i];
    var p := ListPlans(db, gym, activo)[i];
    assert row.plan == p && p in db.planes && p.gym == gym;
    var k :| 0 <= k < |db.planes| && db.planes[k] == p;
    assert PlanInGym(db, p.id, gym).Some?;
  }
}
